=== FILE: README.md ===
# Clinic booking crawler: decision logic

The crawler signs in to a clinic's web reservation system once a day. If a
booking request is saved for today, it books the first time slot that lies
in one of the patient's preferred time ranges.

This project models the decisions the crawler takes in `crawler.py`:

- reading a slot label such as `AM9:30` (`parse_time_string`);
- deciding whether a time lies in a preferred range such as
  `9:00 - 9:30` (`is_in_preferred_range`);
- the run gate and the scheduled-run flag (05:57:00 through 06:05:00
  inclusive, Japan time);
- waiting for the reservation table to open (`wait_for_reservation_opening`).
  A scheduled run sleeps until 06:00 and polls until 06:05, pausing ten
  seconds and reloading after each look that finds nothing. An immediate
  run looks once;
- choosing and clicking a slot inside a block (`attempt_to_book_slot`);
- the morning/afternoon block policy of `run_automation`. The details form
  is filled in only after a click, and the browser is quit on every path
  that starts it.

The browser and the clock are inputs. The browser is modelled as the answers
the site gives: a `Portal` holds the sign-in result, the successive answers
to looks at the table (`Probe`), each block's slot forms (`SlotList`),
whether going back settles, and how many detail steps succeed. The clock is
whole seconds since midnight, Japan local time. It moves forward by the
time the sign-in takes, and after that only when the crawler sleeps or waits
for a reload. Every operation returns what it
decided together with the log of browser actions it took (`Page.Action`).
The contracts are stated over that log: which blocks were opened, how many
slots were clicked, where the browser was started and quit, and the order
of the stages (start, sign-in, wait, blocks, details, quit).

The wait exists in two versions (`Opening.WaitVersion`). `AsWritten` is the
code as it stands, which raises `TypeError` when a scheduled run reaches it
before 06:00 (see "## Findings"). `Intended` sleeps until 06:00 instead.
`Automation.RunAutomation` takes the version as a parameter, and its
contracts hold for both.

Modules, one per concern:

- `Python`: the built-ins the crawler relies on. These are `str.strip`,
  `str.upper`, `str.split` and `int()`, plus `Option` and `Result`, where
  `ValueError` is the error case.
- `Clock`: `datetime.time` and its ordering, the opening constants, and the
  scheduled window.
- `Strptime`: the two `strptime` formats used, `%p%I:%M` and `%H:%M`.
- `TimeLabel`, `Ranges`, `Opening`, `Slots`: one per function of the
  crawler.
- `Blocks`, `Automation`: `run_automation`.
- `Page`: the action vocabulary shared by all of them.

## Model

| member | source | states |
|---|---|---|
| Python.Strip | crawler.py:35 | what strip leaves neither starts nor ends with whitespace, and is never longer than the text |
| Python.StripEmpty | crawler.py:35 | strip leaves nothing exactly when the text is all whitespace |
| Python.StripLeadingRemovesSpace | crawler.py:35 | what is removed at the front is whitespace, and what is left is the rest of the text |
| Python.StripTrailingRemovesSpace | crawler.py:35 | what is removed at the end is whitespace |
| Python.StripPadded | crawler.py:35 | stripping whitespace around a core that neither starts nor ends with whitespace gives exactly the core |
| Python.StripUnpadded | crawler.py:35 | a text with no whitespace at either end is left as it is by strip |
| Python.Upper | crawler.py:35 | upper-casing keeps the length |
| Python.UpperPointwise | crawler.py:35 | upper-casing maps each character on its own and leaves no lower-case ASCII letter |
| Python.UpperUnchanged | crawler.py:35 | upper-casing leaves a text with no lower-case ASCII letter unchanged |
| Python.Find | crawler.py:43 | the index found is an occurrence of the separator with no occurrence before it; no index means no occurrence at all |
| Python.Split | crawler.py:43 | the parts joined by the separator give the text back; one part exactly when the separator does not occur; otherwise the first part is the text before its first occurrence; no part contains the separator |
| Python.SplitCutsAtFirst | crawler.py:43 | each part but the last is followed by the first occurrence of the separator after it, so a separator that overlaps itself is cut where `str.split` cuts it |
| Python.NoneBeforeFirst | crawler.py:43 | the text before the first occurrence of a separator contains none |
| Python.ParseIntOfDecimalString | crawler.py:144 | `int()` reads a decimal numeral with whitespace around it as its value |
| Python.ParseIntOfNegated | crawler.py:144 | `int()` reads a minus sign followed by a numeral as the negated value |
| Python.ParseIntShape | crawler.py:144 | `int()` accepts only a stripped text that ends in a digit; an unsigned numeral is never negative, a negated one never positive; blank text raises ValueError |
| Clock.FromSeconds | crawler.py:120 | the clock reading n seconds after midnight is a valid time of day whose seconds since midnight are n |
| Clock.OrderIsSecondsOrder | crawler.py:121 | comparing times field by field is the same as comparing seconds since midnight |
| Clock.ScheduledWindow | crawler.py:121 | a run is scheduled exactly when it reads the clock between 05:57:00 and 06:05:00, both ends included |
| Clock.ScheduledWindowEdges | crawler.py:121 | 05:57:00 and 06:05:00 are scheduled; 05:56:59 and 06:05:01 are not |
| Strptime.Strptime24 | crawler.py:44-45 | every `%H:%M` reading is a time of day, below 24 * 60 minutes |
| Strptime.Strptime24Shape | crawler.py:44-45 | every text `%H:%M` reads is an hour 0-23, a colon and a minute 0-59, read as hour * 60 + minute |
| Strptime.Strptime12 | crawler.py:37 | every `%p%I:%M` reading is a time of day, below 24 * 60 minutes |
| Strptime.Strptime24Accepts | crawler.py:44-45 | `%H:%M` reads an hour 0-23 and a minute 0-59 as hour * 60 + minute |
| Strptime.Strptime12Accepts | crawler.py:37 | `%p%I:%M` reads a meridiem, an hour 1-12, a colon and a minute 0-59 as the 24-hour time: 12 AM is hour 0, other PM hours gain 12 |
| Strptime.TokensArePatterns | crawler.py:37-45 | a text is an `%I`, `%M` or `%H` field exactly when it matches one of the alternatives of CPython's pattern for that field, character class by character class |
| TimeLabel.ParseTimeString | crawler.py:34-38 | no time (not an error) exactly when the stripped, upper-cased label does not start with AM or PM; any time read lies within the day |
| TimeLabel.LabelAccepted | crawler.py:35-37 | every label that normalizes to meridiem, hour 1-12, colon, minute 0-59 is read as the hour mod 12, plus 12 for PM, and the minute |
| TimeLabel.LabelShape | crawler.py:36-37 | conversely, every label read as a time normalizes to that form, and the time is that reading |
| TimeLabel.HourText | crawler.py:37 | the hour the site shows is a 12-hour token whose value is the hour |
| TimeLabel.FormatLabelRoundTrip | crawler.py:34-38 | the site's spelling of any time of day is read back as that time |
| TimeLabel.TwelveHourClock | crawler.py:37 | hours 0 and 12 show as 12, and reading back with the meridiem restores the 24-hour hour |
| TimeLabel.NormalizeCanonical | crawler.py:35 | a label already in the site's spelling is unchanged by strip and upper |
| TimeLabel.CanonicalLabelAccepted | crawler.py:34-37 | a label in the site's spelling is read as its 24-hour time |
| TimeLabel.MorningLabelExample | crawler.py:37 | `AM9:30` is 09:30 |
| TimeLabel.AfternoonLabelExample | crawler.py:37 | `PM1:15` is 13:15 |
| TimeLabel.MidnightLabelExample | crawler.py:37 | `AM12:05` is 00:05 |
| TimeLabel.NoonLabelExample | crawler.py:37 | `PM12:40` is 12:40 |
| TimeLabel.PaddedLowerCaseExample | crawler.py:35-37 | surrounding whitespace and lower case do not matter: `" pm3:7\n"` is 15:07 |
| TimeLabel.NoMeridiemExample | crawler.py:36-38 | `9:30` and the empty label give no time, not an error |
| TimeLabel.Rejected | crawler.py:37 | a digit hour and minute that are not a 12-hour hour and a minute raise ValueError |
| TimeLabel.HourThirteenRejected | crawler.py:37 | `AM13:00` raises ValueError |
| TimeLabel.MinuteSixtyRejected | crawler.py:37 | `AM9:60` raises ValueError |
| TimeLabel.TrailingDigitRejected | crawler.py:37 | `AM9:305` raises ValueError |
| TimeLabel.MissingColonRejected | crawler.py:37 | `PM930` raises ValueError |
| Ranges.ParseRange | crawler.py:43-45 | both ends of a range that reads are times of day |
| Ranges.ParseRangeBeforeSeparator | crawler.py:43-45 | a range text without `" - "` raises ValueError; the start of a range that reads is the text before the first `" - "`, read with `%H:%M` |
| Ranges.IsInPreferredRange | crawler.py:41 | a slot without a time is never preferred |
| Ranges.ScanDecidedByFirstDecidingRange | crawler.py:42-48 | the answer is true exactly when some range holds the time and every earlier range reads and misses; it is ValueError exactly when some range does not read and every earlier one reads and misses; it is false exactly when every range reads and misses |
| Ranges.ScanOfReadRanges | crawler.py:42-48 | over ranges that all read, the answer is whether one of them holds the time |
| Ranges.PreferredIffSomeRangeHolds | crawler.py:40-48 | for well-formed range texts, a time is preferred exactly when some range holds it, start included and end excluded |
| Ranges.SingleRange | crawler.py:42-47 | with one range that reads, a time is preferred exactly when that range holds it |
| Ranges.OrderDoesNotMatter | crawler.py:42-48 | reordering or repeating well-formed ranges does not change the answer |
| Ranges.FormatRangeRoundTrip | crawler.py:43-45 | writing a range as `H:MM - H:MM` and reading it back gives the same range |
| Ranges.ClockRoundTrip | crawler.py:44-45 | `%H:%M` reads back the written time, and the written time has no space |
| Ranges.SplitAtSeparator | crawler.py:43 | two space-free texts joined by `" - "` split back into exactly those two |
| Ranges.RangeEnds | crawler.py:46 | the start of a range is preferred; the end and the minute before the start are not |
| Ranges.MorningRangeExample | crawler.py:43-45 | `9:00 - 9:30` reads as 09:00 to 09:30 |
| Ranges.AfternoonRangeExample | crawler.py:43-45 | `13:10 - 13:30` reads as 13:10 to 13:30 |
| Opening.Poll | crawler.py:65-77 | the clock never goes back; opened exactly when the last action is a successful look; a reload timeout exactly when the last action is a reload that did not settle; giving up only at 06:05 or later, which `Opening.PollPaced` ties to the pauses and reload times; never a TypeError |
| Opening.PollHasShape | crawler.py:65-77 | every polling log has the loop's shape: looks only before 06:05, a successful look only as the last action, a ten-second pause and a reload after every failed look and nowhere else, starting with a look |
| Opening.PollReadsPage | crawler.py:65-77 | the polling log reads the page: its i-th look found a link exactly when the page's i-th answer is open, its i-th reload settled exactly when that answer's reload shows the table within ten seconds, and it opened exactly when its last look found a link, no earlier look having found one |
| Opening.PollPaced | crawler.py:65-77 | the polling keeps the loop's pace: the first look is at the starting time; each later look comes as long after the one before as that look's round took (ten seconds of pause plus the reload's settle time, the reload being cut off after ten seconds); the reported clock is the last look's time plus its round's, or the starting time when there was no look. With the poll's own ensures, giving up means the last look was before 06:05 and the next would have come at 06:05 or later |
| Opening.PollFirstLook | crawler.py:65-67 | polling before 06:05 starts with a look that reads the page's first answer |
| Opening.WaitForReservationOpening | crawler.py:50-85 | an immediate run looks once and has opened exactly when that look succeeds; a scheduled run before 06:00 first sleeps until 06:00, then looks at 06:00 with the first answer, and polls on; a scheduled run from 06:00 polls at once, and before 06:05 its first action is a look with the first answer; opened exactly when the last action is a successful look |
| Opening.WaitReadsPage | crawler.py:50-85 | every wait reads the page as polling does, the sleep before 06:00 adding no look or reload |
| Opening.WaitPaced | crawler.py:50-85 | an immediate run's one look leaves the clock where it was; a scheduled run's looks keep the polling pace from 06:00, or from its start when that is later |
| Opening.RunNowReads | crawler.py:78-85 | the single look of an immediate run reads the first answer |
| Opening.WaitAsWritten | crawler.py:59-60 | as written, a scheduled run reaching the wait before 06:00 raises TypeError with no action; otherwise it behaves as the intended wait |
| Opening.EarlyScheduledRunRaises | crawler.py:59-63 | at 05:58:30 the as-written wait raises before any look, where the intended wait sleeps 90 seconds |
| Opening.PollAtDeadline | crawler.py:65-76 | polling from 06:05:00 or later gives up at once without a look |
| Opening.ClosedTableReloads | crawler.py:65-74 | a table that never opens and reloads at once is looked at every ten seconds until 06:05: k rounds from 10k seconds before it |
| Opening.ClosedTableFromOpening | crawler.py:65-77 | from 06:00 such a table is polled thirty times (90 actions) and the wait ends not opened |
| Opening.OpenAtFirstLook | crawler.py:67-69 | a table open at the first look ends the wait at once with that one look |
| Slots.FirstBookable | crawler.py:91-98 | the form found is bookable and none before it is; none found means no form is bookable |
| Slots.AttemptToBookSlot | crawler.py:87-100 | forms that never appear book nothing; a slot is booked exactly when some form is bookable; then exactly one click, on the first bookable form in document order; otherwise no action |
| Slots.SkippedForms | crawler.py:93-98 | a form with no label, an unreadable label, a label without AM/PM, or no link is never clicked |
| Slots.EarlierBookableWins | crawler.py:91-97 | a bookable form placed first is the one clicked |
| Slots.QuarterPastNineBookable | crawler.py:93-96 | `AM9:15` with a link is bookable under `9:00 - 9:30` |
| Slots.QuarterToTenNotBookable | crawler.py:93-94 | `AM9:45` is not bookable under `9:00 - 9:30` |
| Slots.DocumentOrderExample | crawler.py:91-97 | skipping a form outside the range and a matching form without a link, the third form is clicked |
| Slots.ThirdFormClicked | crawler.py:91-98 | when the first two forms are not bookable and the third is, exactly the third form is clicked |
| Blocks.ParseHourText | crawler.py:144 | `int()` reads an hour text as its value |
| Blocks.StartHourBeforeColon | crawler.py:144 | the start hour is `int()` of the text before the first colon, or of the whole text when it has no colon |
| Blocks.StartHourText | crawler.py:144 | for a range that reads, the text before its first colon is the hour text of its start |
| Blocks.StartHourOfWellFormed | crawler.py:144-145 | for a range that reads, `int(r.split(':')[0])` is the hour of its start |
| Blocks.BlockFlagOfHours | crawler.py:144-145 | once every start hour is an integer, a block flag is whether some start hour lies in the block |
| Blocks.AnyStartInDecided | crawler.py:144-145 | a block flag is true exactly when some range starts in the block and every earlier start hour is an integer outside it; ValueError exactly when some start hour is no integer and every earlier one is an integer outside the block; false exactly when every start hour is an integer outside the block |
| Blocks.AnyStartInTrue | crawler.py:144-145 | the true case of that characterization, both directions |
| Blocks.AnyStartInRaises | crawler.py:144-145 | the ValueError case of that characterization, both directions |
| Blocks.AnyStartInFalse | crawler.py:144-145 | the false case of that characterization, both directions |
| Blocks.BlockFlagOfWellFormed | crawler.py:144-145 | over ranges that read, the morning (afternoon) block is wanted exactly when some range starts before (at or after) 13:00 |
| Blocks.SingleRangeFlag | crawler.py:144-145 | a single range that reads calls for the block its start hour lies in |
| Blocks.MorningRangeFlags | crawler.py:144-145 | `9:00 - 9:30` calls for the morning block and not the afternoon block |
| Blocks.TryBlock | crawler.py:150-159 | a block without a link is reported and skipped; otherwise its link is clicked and the slot attempt runs; one click exactly when booked, ending the log; the block is opened once and the other block not at all |
| Blocks.TryBlocks | crawler.py:146-159 | the morning block is tried exactly when wanted; the afternoon block exactly when wanted, the morning did not book, and going back did not time out; a back timeout needs a morning link; one click exactly when booked, in the booked block, ending the log |
| Blocks.TryBlocksBooks | crawler.py:146-159 | the morning block books exactly when it is wanted, has a link and its slot attempt books; going back times out exactly when the morning is wanted, has a link, does not book and the table does not come back; the afternoon books exactly when the morning neither booked nor timed out and the afternoon is wanted, has a link and its attempt books; the booked block's log is its opening click followed by exactly that block's slot attempt; unless the morning booked, the log is the morning's part, then the way back after an opened morning block with whether the table came back, then (unless that timed out) the afternoon's part |
| Blocks.SelectBlocks | crawler.py:144-159 | a start hour that is not an integer aborts before any block is tried; otherwise the blocks are tried as the flags say |
| Blocks.SelectBlocksBooks | crawler.py:144-159 | the morning books, going back times out, or the afternoon books exactly as for the block trial, each only when both flags read, with the flags' values as the wants; a flag that raises books nothing; the booked block's log ends with its opening click and exactly that block's slot attempt; when the flags read and the morning did not book, the log is the morning's part, the way back, then the afternoon's part, as for the block trial |
| Blocks.NoRangesNoBlocks | crawler.py:144-161 | with no range, no block is tried and nothing is booked |
| Blocks.MissingMorningSkipped | crawler.py:148-159 | a morning block without a link is skipped, and the afternoon block is tried as if the morning were not wanted |
| Blocks.LoneMorningFormBooked | crawler.py:148-151 | when the morning block is wanted and its only form is bookable, that form is clicked and the afternoon block is left alone |
| Blocks.LoneMorningFormMissed | crawler.py:148-159 | when only the morning block is wanted and its only form is not bookable, the crawler goes back and stops |
| Blocks.MorningBlockBooks | crawler.py:148-151 | under `9:00 - 9:30`, a morning block offering `AM9:15` is booked at once |
| Blocks.MorningBlockMisses | crawler.py:148-159 | under `9:00 - 9:30`, a morning block offering only `AM9:45` books nothing, and the crawler goes back |
| Automation.EnterDetails | crawler.py:163-169 | reserved exactly when all four detail steps succeed, after name, symptoms, next, register; otherwise the steps done so far and a details fault; never a click |
| Automation.Book | crawler.py:144-169 | at most one click; no click means the details form is never touched; reserved means one click and the log ends with register; when the sign-in or the wait stops the run, the session is exactly that stop and its log, so no block is tried |
| Automation.BookFollowsChoice | crawler.py:144-169 | reserved exactly when a block booked and all four details steps succeeded; a details fault exactly when a block booked and a step failed; no matching slot, a bad start hour and a back timeout exactly when the block choice ended so; the details are entered after the block log only when a block booked |
| Automation.ReservedIff | crawler.py:144-169 | the run is reserved exactly when both flags read, the morning or (failing it, without a back timeout) the afternoon block books, and all four details steps succeed |
| Automation.SignInAndWait | crawler.py:126-141 | the run goes on to the blocks exactly when sign-in completes and the wait opened; a failed sign-in stops with the sign-in fault and only the failed sign-in logged; after a completed sign-in the log is the sign-in followed by exactly the wait's log; it stops with no slots exactly when the sign-in completed and the wait gave up at 06:05, and with a reload fault exactly when the sign-in completed and a reload timed out; never a click; the TypeError exactly when the as-written wait is reached by a scheduled run before 06:00, with only the sign-in logged |
| Automation.SignInAndWaitAgrees | crawler.py:59-60 | away from that case, signing in and waiting is the same under both versions of the wait |
| Automation.BookingAfterWait | crawler.py:139-169 | the booking that follows the wait keeps the stages in order, adds no click to the wait's none, keeps the last action, and without a click stays out of the details form |
| Automation.Session | crawler.py:126-169 | stages in order from sign-in to details; at most one click; no details without a click; reserved means one click and the log ends with register |
| Automation.SessionTypeError | crawler.py:126-141 | a session ends with the wait's TypeError exactly when the as-written wait is reached by a scheduled run before 06:00, and then after the sign-in alone |
| Automation.WithDriverTypeError | crawler.py:123-174 | in that case the browser is started, the sign-in done, and the browser quit, nothing else |
| Automation.WithDriver | crawler.py:123-174 | however the session ends, the browser is started first and quit last, once each; at most one click; no details without a click |
| Automation.Bracket | crawler.py:123-174 | a session placed between starting and quitting the browser keeps its order and its clicks |
| Automation.RunAutomation | crawler.py:102-174 | under either wait: no saved request, or a request for another day, ends the run with no action; a browser is started exactly when the gate is open, and is then always quit; at most one click; details only after a click; reserved means exactly one click and register just before quitting; the wait's TypeError exactly when the as-written wait is reached before 06:00 by a scheduled run with the gate open, and then the log is start, sign-in, quit; with the gate open, a sign-in or wait that stops the run gives that stop with the log start, sign-in and wait, quit |
| Automation.StoppedWaitEndsRun | crawler.py:126-174 | a run whose sign-in fails or whose wait does not open ends there with no slots, a sign-in fault, a reload fault or the TypeError; its log is start, the sign-in and wait log, quit, with no block opened, no slot clicked and no details entered |
| Automation.EarlyScheduledRunAborts | crawler.py:59-60 | as written, a scheduled run for today whose sign-in ends before 06:00 aborts with the TypeError after starting the browser and signing in, and still quits the browser |
| Automation.AsWrittenDiffersOnlyEarly | crawler.py:59-60 | the run as written and the intended run differ exactly when the gate is open and a scheduled run reaches the wait before 06:00 |
| Automation.RunNowWaitOpens | crawler.py:126-139 | under either wait, a run-now request that signs in and finds the table open takes exactly the sign-in and one successful look |
| Automation.RunNowOpenTable | crawler.py:120-174 | under either wait, a run-now request that signs in and finds the table open looks once, books as the table allows, and quits |
| Automation.MorningSlotReserved | crawler.py:102-174 | under either wait, a run-now request for `9:00 - 9:30`, at any time outside the scheduled window, against a morning block offering `AM9:15` clicks it, enters and registers the details, and quits |
| Automation.MorningBookingReserved | crawler.py:144-169 | the booking part of that run: the click, then the four detail steps |
| Automation.MorningSlotMissed | crawler.py:102-174 | under either wait, the same request when the morning block offers only `AM9:45` goes back, skips the afternoon block, never touches the details, and quits |
| Automation.MorningBookingMissed | crawler.py:148-161 | the booking part of that run: open the morning block, then go back |
| Automation.ScheduledRunSleepsThenPolls | crawler.py:54-174 | a scheduled run at 05:58:00 with a 30-second sign-in, under the intended wait, sleeps 90 seconds, finds the table closed at 06:00:00, retries, and finds it open at 06:00:12; as written, it aborts with the TypeError after the sign-in and quits the browser |
| Automation.ScheduledWaitOpens | crawler.py:54-74 | the wait of that run: intended, sign-in, a 90-second sleep, a failed look at 06:00:00, a ten-second pause, a reload, and a successful look at 06:00:12; as written, the TypeError right after the sign-in |

## Left out

- Selenium itself: element lookups, clicks, and page waits. They are
  abstracted into the `Portal` answers. A `WebDriverWait` timeout is a reload
  or back action that does not settle (`Probe.Stalled`, `Back(false)`).
- Sign-in navigation, crawler.py:129-137: the seven steps are one outcome,
  completed or not, plus a duration. Which step fails does not change what
  the run does next.
- `load_config` and the JSON file. A missing file and an empty object are
  both `None`. A missing `request_date`, or one that is not a string, never
  equals today.
- Missing configuration keys, which raise `KeyError`. The model assumes
  every key is present.
- The time taken by looks, clicks and the five-second pause after
  registering. After sign-in, only sleeps and reload waits move the clock.
- Midnight wrap-around. The clock is not reduced modulo a day after
  sign-in. Sub-second precision is not modelled either, so the opening
  sleep is a whole number of seconds.
- Printing and the `streamlit_app.py` front end.
- Creating the browser, crawler.py:123. A failure there happens before the
  `try`, so nothing is quit, and this path is not modelled.
- Python's Unicode case mapping and digits. `str.strip` uses Python's full
  whitespace set, but `str.upper` maps only the ASCII letters, and `int()`
  and `strptime` accept only ASCII digits. Python would also upper-case
  other letters and read other decimal digits.
- Locale: `%p` is taken as `AM`/`PM`, as in the C locale.
- A range entry that is not a string (a JSON number, boolean, null, list or
  object). Its `split` call at crawler.py:144 would raise `AttributeError`.
- `Opening.Poll`: a page that has run out of prepared answers is taken to
  stay closed and to reload at once. This keeps every run finite without a
  fuel bound.
- `Opening.Poll`: a reload that never settles (`Probe.Stalled`), or one
  whose table shows only after more than the ten-second page wait, is a
  timeout taken to cost exactly those ten seconds. The crawler then raises,
  so the clock after it is not used.

## Findings

| source | as written | input that shows it | evidently intended | confidence | as-written member | corrected member |
|---|---|---|---|---|---|---|
| crawler.py:59-60 | `datetime.combine(now_jst_dt.date(), opening_time)` is a naive datetime (the opening time has no zone). Subtracting the zone-aware `now_jst_dt` from it raises `TypeError` | a scheduled run that reaches the wait at 05:58:30 | sleep until 06:00 (90 seconds here), then poll until 06:05 | not executed | Opening.EarlyScheduledRunRaises | Opening.WaitForReservationOpening |

`Opening.WaitAsWritten` models the wait as written: a scheduled run before
06:00 raises before any look. `Automation.EarlyScheduledRunAborts` proves
that such a run still quits the browser (the `finally` at
crawler.py:171-174), after nothing but the sign-in.
`Automation.AsWrittenDiffersOnlyEarly` proves that this is the only case in
which the two versions of the wait differ. The scenario lemmas for
scheduled runs state both outcomes.

=== FILE: automation.dfy ===
/** One run of the booking automation (`run_automation`): the date gate, the
    scheduled-run flag, the session from sign-in to the details form, and
    the release of the browser on every way out. */
module Automation {
  import opened Python
  import opened Clock
  import opened Page
  import opened Opening
  import opened Slots
  import opened Blocks

  /** The saved booking request. */
  datatype Config = Config(
    requestDate: Option<string>,
    username: string,
    password: string,
    patientName: string,
    symptoms: string,
    ranges: seq<string>)

  /** How the clinic's site answers during one run. */
  datatype Portal = Portal(
    /** Whether the login and navigation to the reservation table complete. */
    signInCompletes: bool,
    /** How long they take. */
    signInSeconds: nat,
    /** The answers to successive looks for open blocks. */
    probes: seq<Probe>,
    /** Each block's page, absent when the table has no link into it. */
    morning: Option<SlotList>,
    afternoon: Option<SlotList>,
    /** Whether the table comes back after leaving the morning block. */
    backSettles: bool,
    /** How many of the four details-form steps succeed. */
    detailStepsCompleted: nat)

  datatype Fault =
    | SignInFailed
    | ReloadFailed
    | StartHourNotInteger
    | BackFailed
    | DetailsFailed
      /** The wait as written subtracts a zone-aware time from a zone-less
          one before 06:00 and raises TypeError. */
    | WaitTypeError

  datatype Outcome =
    | NoConfig
    | NotToday
    | SlotsNotOpen
    | NoMatchingSlot
    | Reserved
    | Aborted(fault: Fault)

  datatype Run = Run(outcome: Outcome, actions: seq<Action>)

  /** The run goes ahead only with a saved request whose date is today. */
  predicate GateOpen(config: Option<Config>, today: string) {
    config.Some? && config.value.requestDate == Some(today)
  }

  /** The details form: patient name, symptoms, next, register. */
  function DetailSteps(c: Config): seq<Action> {
    [Fill(PatientName, c.patientName), Fill(Symptoms, c.symptoms), SubmitDetails, Register]
  }

  /** Filling in the details for a booked slot; a step that fails ends the run. */
  function EnterDetails(c: Config, completed: nat): (r: Run)
    ensures r.outcome == Reserved <==> completed >= 4
    ensures r.outcome == Reserved ==> r.actions == DetailSteps(c)
    ensures r.outcome != Reserved ==> r.outcome == Aborted(DetailsFailed) && r.actions == DetailSteps(c)[..completed]
    ensures InStage(r.actions, DetailsStage) && CountClicks(r.actions) == 0
  {
    var steps := DetailSteps(c);
    if completed >= 4 then
      NoClicks(steps);
      Run(Reserved, steps)
    else
      var done := steps[..completed];
      NoClicks(done);
      Run(Aborted(DetailsFailed), done)
  }

  /** The booking after the table has opened: choose a block and a slot,
      then enter the details only if a slot was clicked. */
  function Book(c: Config, portal: Portal): (r: Run)
    ensures InOrder(r.actions) && StagesBetween(r.actions, BlockStage, DetailsStage)
    ensures CountClicks(r.actions) <= 1
    ensures CountClicks(r.actions) == 0 ==> StagesBetween(r.actions, BlockStage, BlockStage)
    ensures r.outcome == Reserved ==> CountClicks(r.actions) == 1 && r.actions[|r.actions| - 1] == Register
    ensures r.outcome != NoConfig && r.outcome != NotToday && r.outcome != SlotsNotOpen
  {
    var choice := SelectBlocks(c.ranges, portal.morning, portal.afternoon, portal.backSettles);
    SingleStage(choice.actions, BlockStage);
    match choice.result
    case BadStartHour => Run(Aborted(StartHourNotInteger), choice.actions)
    case BackTimeout => Run(Aborted(BackFailed), choice.actions)
    case NoSlot => Run(NoMatchingSlot, choice.actions)
    case Booked(_) =>
      var details := EnterDetails(c, portal.detailStepsCompleted);
      SingleStage(details.actions, DetailsStage);
      Concat(choice.actions, details.actions, BlockStage, BlockStage, DetailsStage);
      var all := choice.actions + details.actions;
      assert details.outcome == Reserved ==> all[|all| - 1] == Register;
      Run(details.outcome, all)
  }

  /** The booking follows the block choice: the details form is entered
      only after a slot click, and the run is reserved exactly when a block
      booked and all four details steps succeeded. */
  lemma BookFollowsChoice(c: Config, portal: Portal)
    ensures var choice := SelectBlocks(c.ranges, portal.morning, portal.afternoon, portal.backSettles);
      var r := Book(c, portal);
      && (r.outcome == Reserved <==> choice.result.Booked? && portal.detailStepsCompleted >= 4)
      && (r.outcome == Aborted(DetailsFailed) <==> choice.result.Booked? && portal.detailStepsCompleted < 4)
      && (r.outcome == NoMatchingSlot <==> choice.result == NoSlot)
      && (r.outcome == Aborted(StartHourNotInteger) <==> choice.result == BadStartHour)
      && (r.outcome == Aborted(BackFailed) <==> choice.result == BackTimeout)
      && (choice.result.Booked? ==> r.actions == choice.actions + EnterDetails(c, portal.detailStepsCompleted).actions)
      && (!choice.result.Booked? ==> r.actions == choice.actions)
  {
  }

  /** The run is reserved exactly when the flags read, one block books as
      the block policy allows, and all four details steps succeed; the slot
      clicked is the one the booking attempt in that block chose. */
  lemma ReservedIff(c: Config, portal: Portal)
    ensures var wantMorning := AnyStartIn(c.ranges, false) == Ok(true);
      var wantAfternoon := AnyStartIn(c.ranges, true) == Ok(true);
      var morningBooks := BlockBooks(wantMorning, Morning, portal.morning, c.ranges);
      var afternoonBooks :=
        && !morningBooks
        && !(wantMorning && portal.morning.Some? && !portal.backSettles)
        && BlockBooks(wantAfternoon, Afternoon, portal.afternoon, c.ranges);
      Book(c, portal).outcome == Reserved <==>
        FlagsRead(c.ranges) && (morningBooks || afternoonBooks) && portal.detailStepsCompleted >= 4
  {
    var choice := SelectBlocks(c.ranges, portal.morning, portal.afternoon, portal.backSettles);
    assert Book(c, portal).outcome == Reserved <==> choice.result.Booked? && portal.detailStepsCompleted >= 4 by {
      BookFollowsChoice(c, portal);
    }
    var wantMorning := AnyStartIn(c.ranges, false) == Ok(true);
    var wantAfternoon := AnyStartIn(c.ranges, true) == Ok(true);
    var morningBooks := BlockBooks(wantMorning, Morning, portal.morning, c.ranges);
    assert choice.result.Booked? <==>
      || (FlagsRead(c.ranges) && morningBooks)
      || (&& FlagsRead(c.ranges) && !morningBooks
          && !(wantMorning && portal.morning.Some? && !portal.backSettles)
          && BlockBooks(wantAfternoon, Afternoon, portal.afternoon, c.ranges))
    by {
      SelectBlocksBooks(c.ranges, portal.morning, portal.afternoon, portal.backSettles);
    }
  }

  /** The session up to the open table: how the run ends if it ends here
      (absent when the table opened), and the actions so far. */
  datatype Waited = Waited(stop: Option<Outcome>, actions: seq<Action>)

  /** A scheduled run whose sign-in completes reaches the wait before 06:00. */
  predicate ReachesWaitEarly(scheduled: bool, clock: int, portal: Portal) {
    scheduled && portal.signInCompletes && clock + portal.signInSeconds < OpeningSecond
  }

  /** Signing in and waiting for the table to open. */
  function SignInAndWait(version: WaitVersion, scheduled: bool, clock: int, portal: Portal): (r: Waited)
    ensures InOrder(r.actions) && StagesBetween(r.actions, 1, WaitStage)
    ensures CountClicks(r.actions) == 0
    ensures r.stop.None? <==>
      portal.signInCompletes && WaitBy(version, scheduled, clock + portal.signInSeconds, portal.probes).outcome == Opened
    ensures r.stop.Some? ==>
      r.stop.value in {SlotsNotOpen, Aborted(SignInFailed), Aborted(ReloadFailed), Aborted(WaitTypeError)}
    ensures r.stop == Some(Aborted(WaitTypeError)) <==> version == AsWritten && ReachesWaitEarly(scheduled, clock, portal)
    ensures r.stop == Some(Aborted(WaitTypeError)) ==> r.actions == [SignIn(true)]
    ensures !portal.signInCompletes ==> r == Waited(Some(Aborted(SignInFailed)), [SignIn(false)])
    ensures var w := WaitBy(version, scheduled, clock + portal.signInSeconds, portal.probes);
      && (portal.signInCompletes ==> r.actions == [SignIn(true)] + w.actions)
      && (r.stop == Some(SlotsNotOpen) <==> portal.signInCompletes && w.outcome == NotOpened)
      && (r.stop == Some(Aborted(ReloadFailed)) <==> portal.signInCompletes && w.outcome == ReloadTimeout)
  {
    if !portal.signInCompletes then
      Waited(Some(Aborted(SignInFailed)), [SignIn(false)])
    else
      var w := WaitBy(version, scheduled, clock + portal.signInSeconds, portal.probes);
      var head := [SignIn(true)];
      SingleStage(head, 1);
      SingleStage(w.actions, WaitStage);
      NoClicksOutsideBlocks(head, 1);
      NoClicksOutsideBlocks(w.actions, WaitStage);
      Concat(head, w.actions, 1, 1, WaitStage);
      assert CountClicks(head + w.actions) == 0;
      var stop := match w.outcome
        case Opened => None
        case NotOpened => Some(SlotsNotOpen)
        case ReloadTimeout => Some(Aborted(ReloadFailed))
        case SubtractionTypeError => Some(Aborted(WaitTypeError));
      assert stop == Some(Aborted(WaitTypeError)) ==> head + w.actions == head;
      Waited(stop, head + w.actions)
  }

  /** Everything between starting the browser and quitting it. */
  function Session(version: WaitVersion, c: Config, scheduled: bool, clock: int, portal: Portal): (r: Run)
    ensures InOrder(r.actions) && StagesBetween(r.actions, 1, DetailsStage)
    ensures CountClicks(r.actions) <= 1
    ensures CountClicks(r.actions) == 0 ==> StagesBetween(r.actions, 1, BlockStage)
    ensures r.outcome == Reserved ==> CountClicks(r.actions) == 1 && r.actions[|r.actions| - 1] == Register
    ensures r.outcome != NoConfig && r.outcome != NotToday
    ensures var w := SignInAndWait(version, scheduled, clock, portal);
      w.stop.Some? ==> r == Run(w.stop.value, w.actions)
  {
    var waited := SignInAndWait(version, scheduled, clock, portal);
    match waited.stop
    case Some(outcome) =>
      BookingAfterWait(waited.actions, []);
      assert waited.actions + [] == waited.actions;
      Run(outcome, waited.actions)
    case None =>
      var b := Book(c, portal);
      BookingAfterWait(waited.actions, b.actions);
      Run(b.outcome, waited.actions + b.actions)
  }

  /** The booking part of a session after its wait keeps the phase order,
      adds no click of its own, keeps the log's last action, and without a
      click never reaches the details form. */
  lemma BookingAfterWait(waited: seq<Action>, booking: seq<Action>)
    requires InOrder(waited) && StagesBetween(waited, 1, WaitStage) && CountClicks(waited) == 0
    requires InOrder(booking) && StagesBetween(booking, BlockStage, DetailsStage)
    requires CountClicks(booking) == 0 ==> StagesBetween(booking, BlockStage, BlockStage)
    ensures InOrder(waited + booking) && StagesBetween(waited + booking, 1, DetailsStage)
    ensures CountClicks(waited + booking) == CountClicks(booking)
    ensures CountClicks(booking) == 0 ==> StagesBetween(waited + booking, 1, BlockStage)
    ensures booking != [] ==> (waited + booking)[|waited + booking| - 1] == booking[|booking| - 1]
  {
    Concat(waited, booking, 1, WaitStage, DetailsStage);
    if CountClicks(booking) == 0 {
      Concat(waited, booking, 1, WaitStage, BlockStage);
    }
  }

  /** A session ends with the TypeError of the wait exactly when the wait as
      written is reached before 06:00, and then right after the sign-in. */
  lemma SessionTypeError(version: WaitVersion, c: Config, scheduled: bool, clock: int, portal: Portal)
    ensures var r := Session(version, c, scheduled, clock, portal);
      && (r.outcome == Aborted(WaitTypeError) <==> version == AsWritten && ReachesWaitEarly(scheduled, clock, portal))
      && (r.outcome == Aborted(WaitTypeError) ==> r.actions == [SignIn(true)])
  {
    var waited := SignInAndWait(version, scheduled, clock, portal);
    if waited.stop.None? {
      assert Book(c, portal).outcome != Aborted(WaitTypeError) by { BookFollowsChoice(c, portal); }
    }
  }

  /** A session run with a browser that is started for it and quit after it,
      however the session ends. */
  function WithDriver(version: WaitVersion, c: Config, scheduled: bool, clock: int, portal: Portal): (r: Run)
    ensures DriverReleased(r.actions) && InOrder(r.actions)
    ensures CountClicks(r.actions) <= 1
    ensures CountClicks(r.actions) == 0 ==> forall i :: 0 <= i < |r.actions| ==> Stage(r.actions[i]) != DetailsStage
    ensures r.outcome == Reserved ==> CountClicks(r.actions) == 1 && r.actions[|r.actions| - 2] == Register
    ensures r.outcome != NoConfig && r.outcome != NotToday
  {
    var s := Session(version, c, scheduled, clock, portal);
    var a := Bracket(s.actions);
    assert s.outcome == Reserved ==> a[|a| - 2] == s.actions[|s.actions| - 1];
    Run(s.outcome, a)
  }

  /** The TypeError of the wait, with the browser started and quit around
      the sign-in. */
  lemma WithDriverTypeError(version: WaitVersion, c: Config, scheduled: bool, clock: int, portal: Portal)
    ensures var r := WithDriver(version, c, scheduled, clock, portal);
      && (r.outcome == Aborted(WaitTypeError) <==> version == AsWritten && ReachesWaitEarly(scheduled, clock, portal))
      && (r.outcome == Aborted(WaitTypeError) ==> r.actions == [StartDriver, SignIn(true), QuitDriver])
  {
    SessionTypeError(version, c, scheduled, clock, portal);
  }

  /** `run_automation`. `clock` is the Japan-local time of day in seconds
      when the run reads it to decide whether it is a scheduled run. */
  function RunAutomation(version: WaitVersion, config: Option<Config>, today: string, clock: int, portal: Portal): (r: Run)
    requires 0 <= clock < SecondsPerDay
    ensures config.None? ==> r == Run(NoConfig, [])
    ensures config.Some? && !GateOpen(config, today) ==> r == Run(NotToday, [])
    ensures r.actions == [] <==> !GateOpen(config, today)
    ensures GateOpen(config, today) ==> DriverReleased(r.actions)
    ensures InOrder(r.actions)
    ensures CountClicks(r.actions) <= 1
    ensures CountClicks(r.actions) == 0 ==> forall i :: 0 <= i < |r.actions| ==> Stage(r.actions[i]) != DetailsStage
    ensures r.outcome == Reserved ==> CountClicks(r.actions) == 1 && r.actions[|r.actions| - 2] == Register
    ensures r.outcome == Aborted(WaitTypeError) <==>
      version == AsWritten && GateOpen(config, today) && ReachesWaitEarly(IsScheduledRun(FromSeconds(clock)), clock, portal)
    ensures r.outcome == Aborted(WaitTypeError) ==> r.actions == [StartDriver, SignIn(true), QuitDriver]
    ensures var w := SignInAndWait(version, IsScheduledRun(FromSeconds(clock)), clock, portal);
      GateOpen(config, today) && w.stop.Some? ==> r == Run(w.stop.value, [StartDriver] + w.actions + [QuitDriver])
  {
    if config.None? then Run(NoConfig, [])
    else if !GateOpen(config, today) then Run(NotToday, [])
    else
      WithDriverTypeError(version, config.value, IsScheduledRun(FromSeconds(clock)), clock, portal);
      WithDriver(version, config.value, IsScheduledRun(FromSeconds(clock)), clock, portal)
  }

  /** A run whose sign-in fails or whose wait does not open ends there, as
      the early return after the wait does: the browser is started, the
      sign-in and the wait are logged, and the browser is quit, with no
      block opened, no slot clicked and no details entered. */
  lemma StoppedWaitEndsRun(version: WaitVersion, config: Option<Config>, today: string, clock: int, portal: Portal)
    requires 0 <= clock < SecondsPerDay
    ensures var w := SignInAndWait(version, IsScheduledRun(FromSeconds(clock)), clock, portal);
      var r := RunAutomation(version, config, today, clock, portal);
      GateOpen(config, today) && w.stop.Some? ==>
        && r.outcome == w.stop.value
        && r.outcome in {SlotsNotOpen, Aborted(SignInFailed), Aborted(ReloadFailed), Aborted(WaitTypeError)}
        && r.actions == [StartDriver] + w.actions + [QuitDriver]
        && CountClicks(r.actions) == 0
        && forall i :: 0 <= i < |r.actions| ==> Stage(r.actions[i]) != BlockStage && Stage(r.actions[i]) != DetailsStage
  {
    var w := SignInAndWait(version, IsScheduledRun(FromSeconds(clock)), clock, portal);
    if GateOpen(config, today) && w.stop.Some? {
      StopLog(w, RunAutomation(version, config, today, clock, portal));
    }
  }

  lemma StopLog(w: Waited, r: Run)
    requires InOrder(w.actions) && StagesBetween(w.actions, 1, WaitStage) && CountClicks(w.actions) == 0
    requires w.stop.Some? && r == Run(w.stop.value, [StartDriver] + w.actions + [QuitDriver])
    ensures CountClicks(r.actions) == 0
    ensures forall i :: 0 <= i < |r.actions| ==> Stage(r.actions[i]) != BlockStage && Stage(r.actions[i]) != DetailsStage
  {
    var a := Bracket(w.actions);
    assert forall i :: 0 < i < |a| - 1 ==> a[i] == w.actions[i - 1];
  }

  /** The browser is started first and quit last, once each. */
  predicate DriverReleased(a: seq<Action>) {
    && |a| >= 2
    && a[0] == StartDriver
    && a[|a| - 1] == QuitDriver
    && forall i :: 0 < i < |a| - 1 ==> 1 <= Stage(a[i]) <= DetailsStage
  }

  /** A session between starting the browser and quitting it. */
  function Bracket(s: seq<Action>): (a: seq<Action>)
    requires InOrder(s) && StagesBetween(s, 1, DetailsStage)
    ensures a == [StartDriver] + s + [QuitDriver]
    ensures DriverReleased(a) && InOrder(a)
    ensures CountClicks(a) == CountClicks(s)
    ensures StagesBetween(s, 1, BlockStage) ==> forall i :: 0 <= i < |a| ==> Stage(a[i]) != DetailsStage
  {
    var head := [StartDriver];
    var tail := [QuitDriver];
    SingleStage(head, 0);
    SingleStage(tail, 5);
    Concat(head, s, 0, 1, DetailsStage);
    Concat(head + s, tail, 0, DetailsStage, 5);
    var a := head + s + tail;
    assert forall i :: 0 < i < |a| - 1 ==> a[i] == s[i - 1];
    a
  }

  /** With the gate open, the run is its session between starting and
      quitting the browser. */
  lemma GateOpenRun(version: WaitVersion, c: Config, today: string, clock: int, portal: Portal)
    requires 0 <= clock < SecondsPerDay && c.requestDate == Some(today)
    ensures var s := Session(version, c, IsScheduledRun(FromSeconds(clock)), clock, portal);
      RunAutomation(version, Some(c), today, clock, portal) == Run(s.outcome, [StartDriver] + s.actions + [QuitDriver])
  {
  }

  /** Once the wait has opened, the session goes on to the booking. */
  lemma SessionAfterOpening(version: WaitVersion, c: Config, scheduled: bool, clock: int, portal: Portal)
    requires SignInAndWait(version, scheduled, clock, portal).stop.None?
    ensures var b := Book(c, portal);
      Session(version, c, scheduled, clock, portal)
        == Run(b.outcome, SignInAndWait(version, scheduled, clock, portal).actions + b.actions)
  {
  }

  /** A scheduled run that reaches the wait before 06:00 ends, as written,
      with the TypeError of the wait: the browser was started, the sign-in
      completed, nothing was looked at, and the browser is quit. */
  lemma EarlyScheduledRunAborts(c: Config, today: string, clock: int, portal: Portal)
    requires 0 <= clock < SecondsPerDay && c.requestDate == Some(today)
    requires IsScheduledRun(FromSeconds(clock))
    requires portal.signInCompletes && clock + portal.signInSeconds < OpeningSecond
    ensures RunAutomation(AsWritten, Some(c), today, clock, portal)
      == Run(Aborted(WaitTypeError), [StartDriver, SignIn(true), QuitDriver])
  {
  }

  /** The run as written and the intended run differ exactly when a
      scheduled run with the gate open reaches the wait before 06:00. */
  lemma AsWrittenDiffersOnlyEarly(config: Option<Config>, today: string, clock: int, portal: Portal)
    requires 0 <= clock < SecondsPerDay
    ensures RunAutomation(AsWritten, config, today, clock, portal) != RunAutomation(Intended, config, today, clock, portal)
      <==> GateOpen(config, today) && ReachesWaitEarly(IsScheduledRun(FromSeconds(clock)), clock, portal)
  {
    var scheduled := IsScheduledRun(FromSeconds(clock));
    if GateOpen(config, today) && !ReachesWaitEarly(scheduled, clock, portal) {
      SignInAndWaitAgrees(scheduled, clock, portal);
      var c := config.value;
      assert Session(AsWritten, c, scheduled, clock, portal) == Session(Intended, c, scheduled, clock, portal);
      assert WithDriver(AsWritten, c, scheduled, clock, portal) == WithDriver(Intended, c, scheduled, clock, portal);
    }
  }

  /** Away from the early scheduled case, signing in and waiting does not
      depend on which wait runs. */
  lemma SignInAndWaitAgrees(scheduled: bool, clock: int, portal: Portal)
    requires !ReachesWaitEarly(scheduled, clock, portal)
    ensures SignInAndWait(AsWritten, scheduled, clock, portal) == SignInAndWait(Intended, scheduled, clock, portal)
  {
    if portal.signInCompletes {
      var now := clock + portal.signInSeconds;
      assert WaitBy(AsWritten, scheduled, now, portal.probes) == WaitBy(Intended, scheduled, now, portal.probes);
    }
  }


  /** The browser started before and quit after a run-now session: the
      sign-in, its one look, then the booking. */
  lemma DriverAroundRunNowWait(signIn: Action, look: Action, booking: seq<Action>)
    ensures [StartDriver] + ([signIn, look] + booking) + [QuitDriver] == [StartDriver, signIn, look] + booking + [QuitDriver]
  {
  }

  /** The browser started before and quit after a scheduled session that
      ends with its wait: the sign-in, the sleep until 06:00, a failed look,
      the retry pause, the reload and a successful look, with no booking. */
  lemma DriverAroundScheduledWait(signIn: Action, sleep: Action, miss: Action, pause: Action,
                                  reload: Action, hit: Action)
    ensures [StartDriver] + ([signIn, sleep, miss, pause, reload, hit] + []) + [QuitDriver]
      == [StartDriver, signIn, sleep, miss, pause, reload, hit, QuitDriver]
  {
  }

  /** A run-now log (start, sign-in, look) followed by a block's opening and
      slot click, the rest of the booking, and the quit. */
  lemma RunNowLogThenBlockSteps(start: Action, signIn: Action, look: Action, open: Action, click: Action,
                                rest: seq<Action>)
    ensures [start, signIn, look] + ([open, click] + rest) + [QuitDriver]
      == [start, signIn, look, open, click] + rest + [QuitDriver]
  {
    assert [start, signIn, look] + [open, click] == [start, signIn, look, open, click];
  }

  /** A run-now request that signs in and finds the table open looks once,
      then books as the table allows, and quits the browser; the wait as
      written and the intended wait agree here. */
  lemma RunNowOpenTable(version: WaitVersion, c: Config, today: string, clock: int, portal: Portal)
    requires 0 <= clock < SecondsPerDay && !IsScheduledRun(FromSeconds(clock))
    requires c.requestDate == Some(today)
    requires portal.signInCompletes && Next(portal.probes) == Open
    ensures var b := Book(c, portal);
      RunAutomation(version, Some(c), today, clock, portal)
        == Run(b.outcome, [StartDriver, SignIn(true), Look(clock + portal.signInSeconds, true)] + b.actions + [QuitDriver])
  {
    RunNowWaitOpens(version, clock, portal);
    SessionAfterOpening(version, c, false, clock, portal);
    GateOpenRun(version, c, today, clock, portal);
    DriverAroundRunNowWait(SignIn(true), Look(clock + portal.signInSeconds, true), Book(c, portal).actions);
  }

  /** The wait of a run-now request that finds the table open. */
  lemma RunNowWaitOpens(version: WaitVersion, clock: int, portal: Portal)
    requires portal.signInCompletes && Next(portal.probes) == Open
    ensures SignInAndWait(version, false, clock, portal)
      == Waited(None, [SignIn(true), Look(clock + portal.signInSeconds, true)])
  {
  }

  /** A run-now request for 9:00 - 9:30 against an open table whose morning
      block offers AM9:15: the slot is clicked, the details are entered and
      registered, and the browser is quit. */
  lemma MorningSlotReserved(version: WaitVersion, c: Config, today: string, clock: int, portal: Portal)
    requires 0 <= clock < SecondsPerDay && !IsScheduledRun(FromSeconds(clock))
    requires c.requestDate == Some(today) && c.ranges == ["9:00 - 9:30"]
    requires portal.signInCompletes && portal.probes == [Open]
    requires portal.morning == Some(Forms([Candidate(Some("AM9:15"), true)]))
    requires portal.detailStepsCompleted >= 4
    ensures RunAutomation(version, Some(c), today, clock, portal) == Run(Reserved,
      [StartDriver, SignIn(true), Look(clock + portal.signInSeconds, true),
       OpenBlock(Morning, true), ClickSlot(Morning, 0)] + DetailSteps(c) + [QuitDriver])
  {
    RunNowOpenTable(version, c, today, clock, portal);
    MorningBookingReserved(c, portal);
    RunNowLogThenBlockSteps(StartDriver, SignIn(true), Look(clock + portal.signInSeconds, true),
      OpenBlock(Morning, true), ClickSlot(Morning, 0), DetailSteps(c));
  }

  lemma MorningBookingReserved(c: Config, portal: Portal)
    requires c.ranges == ["9:00 - 9:30"]
    requires portal.morning == Some(Forms([Candidate(Some("AM9:15"), true)]))
    requires portal.detailStepsCompleted >= 4
    ensures Book(c, portal) == Run(Reserved, [OpenBlock(Morning, true), ClickSlot(Morning, 0)] + DetailSteps(c))
  {
    MorningBlockBooks(portal.afternoon, portal.backSettles);
  }

  /** The same request when the morning block offers only AM9:45: the crawler
      goes back to the table, does not try the afternoon block, never fills in
      the details form, and quits the browser. */
  lemma MorningSlotMissed(version: WaitVersion, c: Config, today: string, clock: int, portal: Portal)
    requires 0 <= clock < SecondsPerDay && !IsScheduledRun(FromSeconds(clock))
    requires c.requestDate == Some(today) && c.ranges == ["9:00 - 9:30"]
    requires portal.signInCompletes && portal.probes == [Open] && portal.backSettles
    requires portal.morning == Some(Forms([Candidate(Some("AM9:45"), true)]))
    ensures RunAutomation(version, Some(c), today, clock, portal) == Run(NoMatchingSlot,
      [StartDriver, SignIn(true), Look(clock + portal.signInSeconds, true),
       OpenBlock(Morning, true), Back(true), QuitDriver])
  {
    RunNowOpenTable(version, c, today, clock, portal);
    MorningBookingMissed(c, portal);
  }

  lemma MorningBookingMissed(c: Config, portal: Portal)
    requires c.ranges == ["9:00 - 9:30"] && portal.backSettles
    requires portal.morning == Some(Forms([Candidate(Some("AM9:45"), true)]))
    ensures Book(c, portal) == Run(NoMatchingSlot, [OpenBlock(Morning, true), Back(true)])
  {
    MorningBlockMisses(portal.afternoon);
  }

  /** A scheduled run started at 05:58:00 whose sign-in takes half a minute
      sleeps the remaining 90 seconds in the intended wait, finds the table
      closed at 06:00:00, retries, and finds it open at 06:00:12; with no
      range it books nothing. As written, the same run raises TypeError
      right after signing in and quits the browser. */
  lemma ScheduledRunSleepsThenPolls(c: Config, today: string, portal: Portal)
    requires c.requestDate == Some(today) && c.ranges == []
    requires portal.signInCompletes && portal.signInSeconds == 30
    requires portal.probes == [Closed(2), Open]
    ensures RunAutomation(Intended, Some(c), today, 5 * 3600 + 58 * 60, portal) == Run(NoMatchingSlot,
      [StartDriver, SignIn(true), Sleep(90), Look(OpeningSecond, false), Sleep(RetrySeconds),
       Refresh(true), Look(OpeningSecond + 12, true), QuitDriver])
    ensures RunAutomation(AsWritten, Some(c), today, 5 * 3600 + 58 * 60, portal)
      == Run(Aborted(WaitTypeError), [StartDriver, SignIn(true), QuitDriver])
  {
    var clock := 5 * 3600 + 58 * 60;
    assert IsScheduledRun(FromSeconds(clock)) by { ScheduledWindow(clock); }
    var waited := ScheduledWaitOpens(portal);
    SessionAfterOpening(Intended, c, true, clock, portal);
    assert Book(c, portal) == Run(NoMatchingSlot, []) by {
      NoRangesNoBlocks(portal.morning, portal.afternoon, portal.backSettles);
    }
    GateOpenRun(Intended, c, today, clock, portal);
    DriverAroundScheduledWait(SignIn(true), Sleep(90), Look(OpeningSecond, false), Sleep(RetrySeconds),
                              Refresh(true), Look(OpeningSecond + 12, true));
    EarlyScheduledRunAborts(c, today, clock, portal);
  }

  /** The wait of that run: intended, it opens at 06:00:12; as written, it
      stops with the TypeError right after the sign-in. */
  lemma ScheduledWaitOpens(portal: Portal) returns (waited: seq<Action>)
    requires portal.signInCompletes && portal.signInSeconds == 30
    requires portal.probes == [Closed(2), Open]
    ensures waited == [SignIn(true), Sleep(90), Look(OpeningSecond, false), Sleep(RetrySeconds),
                       Refresh(true), Look(OpeningSecond + 12, true)]
    ensures SignInAndWait(Intended, true, 5 * 3600 + 58 * 60, portal) == Waited(None, waited)
    ensures SignInAndWait(AsWritten, true, 5 * 3600 + 58 * 60, portal) == Waited(Some(Aborted(WaitTypeError)), [SignIn(true)])
  {
    OpenAtFirstLook(OpeningSecond + 12, [Open]);
    var polled := Round(OpeningSecond) + [Look(OpeningSecond + 12, true)];
    assert Poll(OpeningSecond, portal.probes) == Wait(Opened, polled, OpeningSecond + 12);
    waited := [SignIn(true)] + ([Sleep(90)] + polled);
  }
}

=== FILE: blocks.dfy ===
/** Which blocks of the reservation table to try, and trying them in turn
    (`run_automation`, from the block flags to the booking decision). */
module Blocks {
  import opened Python
  import opened Strptime
  import opened Ranges
  import opened Page
  import opened Slots

  /** The first hour of the afternoon block. */
  const AfternoonHour := 13

  /** `int(r.split(':')[0])`: the integer before the first colon of a range text. */
  function StartHour(r: string): Result<int> {
    ParseInt(Split(r, ":")[0])
  }

  /** The start hour is read from the text before the first colon, or from
      the whole text when it has none. */
  lemma StartHourBeforeColon(r: string)
    ensures Find(r, ":", 0).None? ==> StartHour(r) == ParseInt(r)
    ensures Find(r, ":", 0).Some? ==> StartHour(r) == ParseInt(r[..Find(r, ":", 0).value])
  {
  }

  /** Whether the start hour puts a range in the afternoon block or the morning block. */
  predicate InBlock(hour: int, afternoon: bool) {
    if afternoon then hour >= AfternoonHour else hour < AfternoonHour
  }

  /** `any(...)` over the ranges' start hours: it stops at the first range in
      the block, and a start that is no integer raises when reached. */
  function AnyStartIn(ranges: seq<string>, afternoon: bool): Result<bool>
    decreases |ranges|
  {
    if ranges == [] then Ok(false)
    else
      match StartHour(ranges[0])
      case ValueError => ValueError
      case Ok(h) => if InBlock(h, afternoon) then Ok(true) else AnyStartIn(ranges[1..], afternoon)
  }

  lemma ShortDecimal(h: string)
    requires 1 <= |h| <= 2 && AllDigits(h)
    ensures DigitGroups(h) && DecimalValue(h) == ShortDecimalValue(h)
  {
    if |h| == 2 {
      assert h[..1][0] == h[0];
      assert h[..1][..0] == [];
    } else {
      assert h[..0] == [];
    }
  }

  /** `int()` reads an hour text as its decimal value. */
  lemma ParseHourText(h: string)
    requires Hour24Token(h)
    ensures ParseInt(h) == Ok(ShortDecimalValue(h))
  {
    Hour24Value(h);
    ShortDecimal(h);
    assert !IsSpace(h[0]) && !IsSpace(h[|h| - 1]);
    StripUnpadded(h);
  }

  /** The text before the first colon of a range that reads is the hour
      text of its start. */
  lemma StartHourText(r: string) returns (h: string, m: string)
    requires ParseRange(r).Ok?
    ensures Split(r, ":")[0] == h && Hour24Token(h) && MinuteToken(m)
    ensures ParseRange(r).value.start == ShortDecimalValue(h) * 60 + ShortDecimalValue(m)
  {
    ParseRangeBeforeSeparator(r);
    var j := Find(r, Separator, 0).value;
    h, m := TimeParts(r[..j]);
    FirstColonInStart(r, j);
  }

  /** The hour and minute texts of a `%H:%M` text that reads. */
  lemma TimeParts(p: string) returns (h: string, m: string)
    requires Strptime24(p).Ok?
    ensures Find(p, ":", 0).Some? && h == p[..Find(p, ":", 0).value]
    ensures Hour24Token(h) && MinuteToken(m)
    ensures Strptime24(p).value == ShortDecimalValue(h) * 60 + ShortDecimalValue(m)
  {
    var i := Find(p, ":", 0).value;
    h, m := p[..i], p[i + 1..];
  }

  /** A colon in the first `j` characters is the first colon of the text. */
  lemma FirstColonInStart(r: string, j: nat)
    requires j <= |r| && Find(r[..j], ":", 0).Some?
    ensures Split(r, ":")[0] == r[..j][..Find(r[..j], ":", 0).value]
  {
    FindInPrefix(r, ":", j, 0);
    var i := Find(r[..j], ":", 0).value;
    assert r[..j][..i] == r[..i];
  }

  /** For a range that reads, the integer before its first colon is the hour
      its start time reads as. */
  lemma StartHourOfWellFormed(r: string)
    requires ParseRange(r).Ok?
    ensures StartHour(r) == Ok(ParseRange(r).value.start / 60)
  {
    var h, m := StartHourText(r);
    var hv, mv := ShortDecimalValue(h), ShortDecimalValue(m);
    ParseHourText(h);
    assert StartHour(r) == Ok(hv);
    WholeHours(hv, mv);
    assert ParseRange(r).value.start / 60 == hv;
  }

  lemma WholeHours(h: int, m: int)
    requires 0 <= m < 60
    ensures (h * 60 + m) / 60 == h
  {
  }

  /** The block flag is whether some start hour lies in the block, once every
      start is an integer. */
  lemma {:induction false} BlockFlagOfHours(ranges: seq<string>, hours: seq<int>, afternoon: bool)
    requires |hours| == |ranges|
    requires forall k :: 0 <= k < |ranges| ==> StartHour(ranges[k]) == Ok(hours[k])
    ensures AnyStartIn(ranges, afternoon) == Ok(exists k :: 0 <= k < |hours| && InBlock(hours[k], afternoon))
    decreases |ranges|
  {
    if ranges != [] {
      var tail := ranges[1..];
      var later := hours[1..];
      assert forall k :: 0 <= k < |tail| ==> tail[k] == ranges[k + 1] && later[k] == hours[k + 1];
      BlockFlagOfHours(tail, later, afternoon);
      assert StartHour(ranges[0]) == Ok(hours[0]);
      if exists k :: 0 <= k < |later| && InBlock(later[k], afternoon) {
        var k :| 0 <= k < |later| && InBlock(later[k], afternoon);
        assert hours[k + 1] == later[k];
      }
      if exists k :: 0 <= k < |hours| && InBlock(hours[k], afternoon) {
        var k :| 0 <= k < |hours| && InBlock(hours[k], afternoon);
        if k > 0 { assert hours[k] == later[k - 1]; }
      }
    }
  }

  /** The start hour read at `k` is an integer inside the block. */
  predicate StartsIn(hours: seq<Result<int>>, afternoon: bool, k: int)
    requires 0 <= k < |hours|
  {
    hours[k].Ok? && InBlock(hours[k].value, afternoon)
  }

  /** Every start hour read before position `k` is an integer outside the block. */
  predicate OutsideBefore(hours: seq<Result<int>>, afternoon: bool, k: int)
    requires 0 <= k <= |hours|
  {
    forall j :: 0 <= j < k ==> hours[j].Ok? && !InBlock(hours[j].value, afternoon)
  }

  /** A block flag is decided by the first range that starts in the block or
      whose start hour is no integer; every range before it starts outside
      the block. A start hour that is no integer raises only when reached.
      `hours` are the start hours as `int()` reads them, one per range. */
  lemma AnyStartInDecided(ranges: seq<string>, hours: seq<Result<int>>, afternoon: bool)
    requires |hours| == |ranges|
    requires forall k :: 0 <= k < |ranges| ==> StartHour(ranges[k]) == hours[k]
    ensures AnyStartIn(ranges, afternoon) == Ok(true) <==>
      exists k :: 0 <= k < |hours| && StartsIn(hours, afternoon, k) && OutsideBefore(hours, afternoon, k)
    ensures AnyStartIn(ranges, afternoon) == ValueError <==>
      exists k :: 0 <= k < |hours| && hours[k].ValueError? && OutsideBefore(hours, afternoon, k)
    ensures AnyStartIn(ranges, afternoon) == Ok(false) <==> OutsideBefore(hours, afternoon, |hours|)
  {
    AnyStartInTrue(ranges, hours, afternoon);
    AnyStartInRaises(ranges, hours, afternoon);
    AnyStartInFalse(ranges, hours, afternoon);
  }

  lemma {:induction false} AnyStartInTrue(ranges: seq<string>, hours: seq<Result<int>>, afternoon: bool)
    requires |hours| == |ranges|
    requires forall k :: 0 <= k < |ranges| ==> StartHour(ranges[k]) == hours[k]
    ensures AnyStartIn(ranges, afternoon) == Ok(true) <==>
      exists k :: 0 <= k < |hours| && StartsIn(hours, afternoon, k) && OutsideBefore(hours, afternoon, k)
    decreases |ranges|
  {
    if ranges != [] {
      var tail, later := ranges[1..], hours[1..];
      assert forall k :: 0 <= k < |tail| ==> tail[k] == ranges[k + 1] && later[k] == hours[k + 1];
      AnyStartInTrue(tail, later, afternoon);
      assert StartHour(ranges[0]) == hours[0];
      if hours[0].Ok? && !InBlock(hours[0].value, afternoon) {
        OutsideShift(hours, afternoon);
        if exists k :: 0 <= k < |hours| && StartsIn(hours, afternoon, k) && OutsideBefore(hours, afternoon, k) {
          var k :| 0 <= k < |hours| && StartsIn(hours, afternoon, k) && OutsideBefore(hours, afternoon, k);
          assert k > 0 && StartsIn(later, afternoon, k - 1) && OutsideBefore(later, afternoon, k - 1);
        }
        if AnyStartIn(tail, afternoon) == Ok(true) {
          var k :| 0 <= k < |later| && StartsIn(later, afternoon, k) && OutsideBefore(later, afternoon, k);
          assert StartsIn(hours, afternoon, k + 1) && OutsideBefore(hours, afternoon, k + 1);
        }
      } else {
        assert OutsideBefore(hours, afternoon, 0);
        if hours[0].Ok? {
          assert StartsIn(hours, afternoon, 0);
        }
      }
    }
  }

  lemma {:induction false} AnyStartInRaises(ranges: seq<string>, hours: seq<Result<int>>, afternoon: bool)
    requires |hours| == |ranges|
    requires forall k :: 0 <= k < |ranges| ==> StartHour(ranges[k]) == hours[k]
    ensures AnyStartIn(ranges, afternoon) == ValueError <==>
      exists k :: 0 <= k < |hours| && hours[k].ValueError? && OutsideBefore(hours, afternoon, k)
    decreases |ranges|
  {
    if ranges != [] {
      var tail, later := ranges[1..], hours[1..];
      assert forall k :: 0 <= k < |tail| ==> tail[k] == ranges[k + 1] && later[k] == hours[k + 1];
      AnyStartInRaises(tail, later, afternoon);
      assert StartHour(ranges[0]) == hours[0];
      if hours[0].Ok? && !InBlock(hours[0].value, afternoon) {
        OutsideShift(hours, afternoon);
        if exists k :: 0 <= k < |hours| && hours[k].ValueError? && OutsideBefore(hours, afternoon, k) {
          var k :| 0 <= k < |hours| && hours[k].ValueError? && OutsideBefore(hours, afternoon, k);
          assert k > 0 && later[k - 1].ValueError? && OutsideBefore(later, afternoon, k - 1);
        }
        if AnyStartIn(tail, afternoon) == ValueError {
          var k :| 0 <= k < |later| && later[k].ValueError? && OutsideBefore(later, afternoon, k);
          assert hours[k + 1].ValueError? && OutsideBefore(hours, afternoon, k + 1);
        }
      } else {
        assert OutsideBefore(hours, afternoon, 0);
      }
    }
  }

  lemma {:induction false} AnyStartInFalse(ranges: seq<string>, hours: seq<Result<int>>, afternoon: bool)
    requires |hours| == |ranges|
    requires forall k :: 0 <= k < |ranges| ==> StartHour(ranges[k]) == hours[k]
    ensures AnyStartIn(ranges, afternoon) == Ok(false) <==> OutsideBefore(hours, afternoon, |hours|)
    decreases |ranges|
  {
    if ranges != [] {
      var tail, later := ranges[1..], hours[1..];
      assert forall k :: 0 <= k < |tail| ==> tail[k] == ranges[k + 1] && later[k] == hours[k + 1];
      AnyStartInFalse(tail, later, afternoon);
      assert StartHour(ranges[0]) == hours[0];
      if hours[0].Ok? && !InBlock(hours[0].value, afternoon) {
        OutsideShift(hours, afternoon);
      }
    }
  }

  /** Past a first start hour outside the block, the prefixes of the rest
      line up with the prefixes of the whole. */
  lemma OutsideShift(hours: seq<Result<int>>, afternoon: bool)
    requires |hours| > 0 && hours[0].Ok? && !InBlock(hours[0].value, afternoon)
    ensures forall k :: 0 <= k <= |hours| - 1 ==>
      (OutsideBefore(hours[1..], afternoon, k) <==> OutsideBefore(hours, afternoon, k + 1))
  {
    var later := hours[1..];
    forall k | 0 <= k <= |later|
      ensures OutsideBefore(later, afternoon, k) <==> OutsideBefore(hours, afternoon, k + 1)
    {
      if OutsideBefore(later, afternoon, k) {
        forall j | 0 <= j < k + 1 ensures hours[j].Ok? && !InBlock(hours[j].value, afternoon) {
          if j > 0 { assert hours[j] == later[j - 1]; }
        }
      }
    }
  }

  /** Over ranges that read, a block is tried exactly when some range starts
      in it; no range, no block. */
  lemma BlockFlagOfWellFormed(ranges: seq<string>, afternoon: bool)
    requires WellFormed(ranges)
    ensures AnyStartIn(ranges, afternoon)
      == Ok(exists k :: 0 <= k < |ranges| && InBlock(ParseRange(ranges[k]).value.start / 60, afternoon))
  {
    var hours := seq(|ranges|, k requires 0 <= k < |ranges| => ParseRange(ranges[k]).value.start / 60);
    forall k | 0 <= k < |ranges| ensures StartHour(ranges[k]) == Ok(hours[k]) {
      StartHourOfWellFormed(ranges[k]);
    }
    BlockFlagOfHours(ranges, hours, afternoon);
    assert (exists k :: 0 <= k < |hours| && InBlock(hours[k], afternoon))
      == (exists k :: 0 <= k < |ranges| && InBlock(ParseRange(ranges[k]).value.start / 60, afternoon));
  }

  /** How the choice of a block ended. */
  datatype Selection =
    | Booked(block: Block)
    | NoSlot
      /** A range's text before its first colon is no integer: `int` raises. */
    | BadStartHour
      /** The table did not come back after leaving the morning block. */
    | BackTimeout

  datatype Choice = Choice(result: Selection, actions: seq<Action>)

  /** The crawler clicked the link into `b`, or looked for it and found none. */
  predicate Tried(a: seq<Action>, b: Block) {
    CountOpens(a, b) > 0
  }

  /** The last action clicks a slot of block `b`. */
  predicate EndsWithClickIn(a: seq<Action>, b: Block) {
    a != [] && a[|a| - 1].ClickSlot? && a[|a| - 1].block == b
  }

  /** Opening one block and attempting a booking inside it; a block without
      a link is reported and skipped. */
  function TryBlock(block: Block, page: Option<SlotList>, ranges: seq<string>): (at: Attempt)
    ensures page.None? ==> at == Attempt(false, [OpenBlock(block, false)])
    ensures page.Some? ==>
      var inner := AttemptToBookSlot(block, page.value, ranges);
      at.booked == inner.booked && at.actions == [OpenBlock(block, true)] + inner.actions
    ensures CountClicks(at.actions) == (if at.booked then 1 else 0)
    ensures at.booked ==> EndsWithClickIn(at.actions, block)
    ensures InStage(at.actions, BlockStage)
    ensures CountOpens(at.actions, block) == 1 && CountOpens(at.actions, Other(block)) == 0
  {
    match page
    case None => Attempt(false, [OpenBlock(block, false)])
    case Some(list) =>
      var inner := AttemptToBookSlot(block, list, ranges);
      CountClicksAppend([OpenBlock(block, true)], inner.actions);
      CountOpensAppend([OpenBlock(block, true)], inner.actions, block);
      CountOpensAppend([OpenBlock(block, true)], inner.actions, Other(block));
      Attempt(inner.booked, [OpenBlock(block, true)] + inner.actions)
  }

  /** The block is wanted, the table links into it, and the attempt inside
      it books a slot. */
  predicate BlockBooks(wanted: bool, b: Block, page: Option<SlotList>, ranges: seq<string>) {
    wanted && page.Some? && AttemptToBookSlot(b, page.value, ranges).booked
  }

  /** What trying block `b` writes to the log: nothing when it is not
      wanted, a look that finds no link when the table has none, otherwise
      the click into it and the slot attempt inside. */
  function BlockLog(wanted: bool, b: Block, page: Option<SlotList>, ranges: seq<string>): seq<Action> {
    if !wanted then []
    else if page.None? then [OpenBlock(b, false)]
    else [OpenBlock(b, true)] + AttemptToBookSlot(b, page.value, ranges).actions
  }

  /** The way back to the table after a morning block that was opened and
      booked nothing, and whether the table came back in time. */
  function BackLog(checkMorning: bool, morning: Option<SlotList>, backSettles: bool): seq<Action> {
    if checkMorning && morning.Some? then [Back(backSettles)] else []
  }

  /** The log `a` ends with the actions `b`. */
  predicate EndsWith(a: seq<Action>, b: seq<Action>) {
    |b| <= |a| && a[|a| - |b|..] == b
  }

  function Other(b: Block): Block {
    if b == Morning then Afternoon else Morning
  }

  /** Trying the wanted blocks in turn: the morning block first, going back
      to the table if it books nothing, then the afternoon block if nothing
      is booked yet. */
  function TryBlocks(checkMorning: bool, checkAfternoon: bool, ranges: seq<string>,
                     morning: Option<SlotList>, afternoon: Option<SlotList>, backSettles: bool): (c: Choice)
    ensures c.result != BadStartHour
    ensures InStage(c.actions, BlockStage)
    ensures Tried(c.actions, Morning) <==> checkMorning
    ensures Tried(c.actions, Afternoon) <==>
      checkAfternoon && c.result != Booked(Morning) && c.result != BackTimeout
    ensures c.result == BackTimeout ==> checkMorning && morning.Some? && !backSettles
    ensures CountClicks(c.actions) == (if c.result.Booked? then 1 else 0)
    ensures c.result.Booked? ==> EndsWithClickIn(c.actions, c.result.block)
  {
    var m := if checkMorning then TryBlock(Morning, morning, ranges) else Attempt(false, []);
    if m.booked then
      Choice(Booked(Morning), m.actions)
    else
      var back := BackLog(checkMorning, morning, backSettles);
      assert CountClicks(back) == 0;
      CountClicksAppend(m.actions, back);
      JoinStage(m.actions, back, BlockStage);
      CountOpensAppend(m.actions, back, Morning);
      CountOpensAppend(m.actions, back, Afternoon);
      if checkMorning && morning.Some? && !backSettles then Choice(BackTimeout, m.actions + back)
      else
        var a := if checkAfternoon then TryBlock(Afternoon, afternoon, ranges) else Attempt(false, []);
        CountClicksAppend(m.actions + back, a.actions);
        JoinStage(m.actions + back, a.actions, BlockStage);
        CountOpensAppend(m.actions + back, a.actions, Morning);
        CountOpensAppend(m.actions + back, a.actions, Afternoon);
        var all := m.actions + back + a.actions;
        assert a.booked ==> all[|all| - 1] == a.actions[|a.actions| - 1];
        Choice(if a.booked then Booked(Afternoon) else NoSlot, all)
  }

  /** Which block the choice books: the morning block exactly when it is
      wanted, linked and its attempt books; the afternoon block exactly when
      the morning did not book, the table came back if the morning was
      opened, and the afternoon is wanted, linked and its attempt books. The
      booking ends with the slot click that attempt chose. */
  lemma TryBlocksBooks(checkMorning: bool, checkAfternoon: bool, ranges: seq<string>,
                       morning: Option<SlotList>, afternoon: Option<SlotList>, backSettles: bool)
    ensures var c := TryBlocks(checkMorning, checkAfternoon, ranges, morning, afternoon, backSettles);
      && (c.result == Booked(Morning) <==> BlockBooks(checkMorning, Morning, morning, ranges))
      && (c.result == BackTimeout <==>
            checkMorning && morning.Some? && !BlockBooks(checkMorning, Morning, morning, ranges) && !backSettles)
      && (c.result == Booked(Afternoon) <==>
            && !BlockBooks(checkMorning, Morning, morning, ranges)
            && !(checkMorning && morning.Some? && !backSettles)
            && BlockBooks(checkAfternoon, Afternoon, afternoon, ranges))
      && (c.result == Booked(Morning) ==>
            morning.Some? && c.actions == [OpenBlock(Morning, true)] + AttemptToBookSlot(Morning, morning.value, ranges).actions)
      && (c.result == Booked(Afternoon) ==>
            afternoon.Some? && EndsWith(c.actions, [OpenBlock(Afternoon, true)] + AttemptToBookSlot(Afternoon, afternoon.value, ranges).actions))
      && (c.result != Booked(Morning) ==>
            c.actions == BlockLog(checkMorning, Morning, morning, ranges) + BackLog(checkMorning, morning, backSettles)
                         + (if c.result == BackTimeout then [] else BlockLog(checkAfternoon, Afternoon, afternoon, ranges)))
  {
    var c := TryBlocks(checkMorning, checkAfternoon, ranges, morning, afternoon, backSettles);
    var m := if checkMorning then TryBlock(Morning, morning, ranges) else Attempt(false, []);
    assert m.booked <==> BlockBooks(checkMorning, Morning, morning, ranges);
    if !m.booked && !(checkMorning && morning.Some? && !backSettles) {
      var back := BackLog(checkMorning, morning, backSettles);
      var a := if checkAfternoon then TryBlock(Afternoon, afternoon, ranges) else Attempt(false, []);
      assert a.booked <==> BlockBooks(checkAfternoon, Afternoon, afternoon, ranges);
      assert c.actions == (m.actions + back) + a.actions;
      if a.booked {
        assert c.actions[|c.actions| - |a.actions|..] == a.actions;
      }
    }
  }

  /** The block policy of the run: the block flags first, then the blocks
      they call for. A start hour that does not read aborts before any block
      is tried. */
  function SelectBlocks(ranges: seq<string>, morning: Option<SlotList>, afternoon: Option<SlotList>,
                        backSettles: bool): (c: Choice)
    ensures c.result == BadStartHour <==>
      AnyStartIn(ranges, false).ValueError? || AnyStartIn(ranges, true).ValueError?
    ensures c.result == BadStartHour ==> c.actions == []
    ensures InStage(c.actions, BlockStage)
    ensures Tried(c.actions, Morning) <==> AnyStartIn(ranges, false) == Ok(true) && AnyStartIn(ranges, true).Ok?
    ensures Tried(c.actions, Afternoon) <==>
      && AnyStartIn(ranges, true) == Ok(true) && AnyStartIn(ranges, false).Ok?
      && c.result != Booked(Morning) && c.result != BackTimeout
    ensures c.result == BackTimeout ==> morning.Some? && !backSettles
    ensures CountClicks(c.actions) == (if c.result.Booked? then 1 else 0)
    ensures c.result.Booked? ==> EndsWithClickIn(c.actions, c.result.block)
  {
    match (AnyStartIn(ranges, false), AnyStartIn(ranges, true))
    case (ValueError, _) => Choice(BadStartHour, [])
    case (_, ValueError) => Choice(BadStartHour, [])
    case (Ok(checkMorning), Ok(checkAfternoon)) =>
      TryBlocks(checkMorning, checkAfternoon, ranges, morning, afternoon, backSettles)
  }

  /** Both block flags read: no start hour met on the way raises. */
  predicate FlagsRead(ranges: seq<string>) {
    AnyStartIn(ranges, false).Ok? && AnyStartIn(ranges, true).Ok?
  }

  /** The block policy books the morning block exactly when the flags read,
      the morning is wanted, linked and its attempt books; it books the
      afternoon block exactly when the flags read, the morning did not book,
      the table came back if the morning was opened, and the afternoon is
      wanted, linked and its attempt books. The booking ends with the slot
      click that attempt chose. */
  lemma SelectBlocksBooks(ranges: seq<string>, morning: Option<SlotList>, afternoon: Option<SlotList>,
                          backSettles: bool)
    ensures var c := SelectBlocks(ranges, morning, afternoon, backSettles);
      var wantMorning := AnyStartIn(ranges, false) == Ok(true);
      var wantAfternoon := AnyStartIn(ranges, true) == Ok(true);
      && (c.result == Booked(Morning) <==> FlagsRead(ranges) && BlockBooks(wantMorning, Morning, morning, ranges))
      && (c.result == BackTimeout <==>
            && FlagsRead(ranges) && wantMorning && morning.Some?
            && !BlockBooks(wantMorning, Morning, morning, ranges) && !backSettles)
      && (c.result == Booked(Afternoon) <==>
            && FlagsRead(ranges)
            && !BlockBooks(wantMorning, Morning, morning, ranges)
            && !(wantMorning && morning.Some? && !backSettles)
            && BlockBooks(wantAfternoon, Afternoon, afternoon, ranges))
      && (c.result == Booked(Morning) ==>
            morning.Some? && c.actions == [OpenBlock(Morning, true)] + AttemptToBookSlot(Morning, morning.value, ranges).actions)
      && (c.result == Booked(Afternoon) ==>
            afternoon.Some? && EndsWith(c.actions, [OpenBlock(Afternoon, true)] + AttemptToBookSlot(Afternoon, afternoon.value, ranges).actions))
      && (FlagsRead(ranges) && c.result != Booked(Morning) ==>
            c.actions == BlockLog(wantMorning, Morning, morning, ranges) + BackLog(wantMorning, morning, backSettles)
                         + (if c.result == BackTimeout then [] else BlockLog(wantAfternoon, Afternoon, afternoon, ranges)))
  {
    if FlagsRead(ranges) {
      TryBlocksBooks(AnyStartIn(ranges, false).value, AnyStartIn(ranges, true).value, ranges, morning, afternoon, backSettles);
    }
  }

  /** With no range at all neither block is tried. */
  lemma NoRangesNoBlocks(morning: Option<SlotList>, afternoon: Option<SlotList>, backSettles: bool)
    ensures SelectBlocks([], morning, afternoon, backSettles) == Choice(NoSlot, [])
  {
  }

  /** A morning block without a link is skipped, and the afternoon block is
      tried next as if the morning had not been wanted. */
  lemma MissingMorningSkipped(ranges: seq<string>, afternoon: Option<SlotList>, backSettles: bool)
    requires AnyStartIn(ranges, false) == Ok(true) && AnyStartIn(ranges, true) == Ok(true)
    ensures SelectBlocks(ranges, None, afternoon, backSettles).actions
      == [OpenBlock(Morning, false)] + TryBlock(Afternoon, afternoon, ranges).actions
    ensures SelectBlocks(ranges, None, afternoon, backSettles).result
      == (if TryBlock(Afternoon, afternoon, ranges).booked then Booked(Afternoon) else NoSlot)
  {
    assert [OpenBlock(Morning, false)] + [] == [OpenBlock(Morning, false)];
  }

  /** A single range that reads calls for the block its start hour lies in. */
  lemma SingleRangeFlag(r: string, afternoon: bool)
    requires ParseRange(r).Ok?
    ensures AnyStartIn([r], afternoon) == Ok(InBlock(ParseRange(r).value.start / 60, afternoon))
  {
    StartHourOfWellFormed(r);
    assert [r][1..] == [];
    assert AnyStartIn([r][1..], afternoon) == Ok(false);
  }

  /** The single range 9:00 - 9:30 calls for the morning block only. */
  lemma MorningRangeFlags()
    ensures AnyStartIn(["9:00 - 9:30"], false) == Ok(true)
    ensures AnyStartIn(["9:00 - 9:30"], true) == Ok(false)
  {
    MorningRangeExample();
    SingleRangeFlag("9:00 - 9:30", false);
    SingleRangeFlag("9:00 - 9:30", true);
  }

  /** When the ranges call for the morning block and its only form is
      bookable, that form is clicked and the afternoon block is left alone. */
  lemma LoneMorningFormBooked(ranges: seq<string>, c: Candidate, afternoon: Option<SlotList>, backSettles: bool)
    requires AnyStartIn(ranges, false) == Ok(true) && AnyStartIn(ranges, true).Ok?
    requires Bookable(c, ranges)
    ensures SelectBlocks(ranges, Some(Forms([c])), afternoon, backSettles)
      == Choice(Booked(Morning), [OpenBlock(Morning, true), ClickSlot(Morning, 0)])
  {
    assert FirstBookable([c], ranges, 0) == Some(0);
    var inner := AttemptToBookSlot(Morning, Forms([c]), ranges);
    assert inner == Attempt(true, [ClickSlot(Morning, 0)]);
    var m := TryBlock(Morning, Some(Forms([c])), ranges);
    assert m == Attempt(true, [OpenBlock(Morning, true)] + [ClickSlot(Morning, 0)]);
    assert TryBlocks(true, AnyStartIn(ranges, true).value, ranges, Some(Forms([c])), afternoon, backSettles)
      == Choice(Booked(Morning), m.actions);
  }

  /** When the ranges call for the morning block only and its only form is
      not bookable, the crawler goes back to the table and stops there. */
  lemma LoneMorningFormMissed(ranges: seq<string>, c: Candidate, afternoon: Option<SlotList>)
    requires AnyStartIn(ranges, false) == Ok(true) && AnyStartIn(ranges, true) == Ok(false)
    requires !Bookable(c, ranges)
    ensures SelectBlocks(ranges, Some(Forms([c])), afternoon, true)
      == Choice(NoSlot, [OpenBlock(Morning, true), Back(true)])
  {
    assert FirstBookable([c], ranges, 0) == None;
    assert [OpenBlock(Morning, true)] + [Back(true)] + [] == [OpenBlock(Morning, true), Back(true)];
  }

  /** Under 9:00 - 9:30, a morning block offering AM9:15 is booked at once. */
  lemma MorningBlockBooks(afternoon: Option<SlotList>, backSettles: bool)
    ensures SelectBlocks(["9:00 - 9:30"], Some(Forms([Candidate(Some("AM9:15"), true)])), afternoon, backSettles)
      == Choice(Booked(Morning), [OpenBlock(Morning, true), ClickSlot(Morning, 0)])
  {
    MorningRangeFlags();
    QuarterPastNineBookable();
    LoneMorningFormBooked(["9:00 - 9:30"], Candidate(Some("AM9:15"), true), afternoon, backSettles);
  }

  /** Under 9:00 - 9:30, a morning block offering only AM9:45 books nothing;
      the crawler goes back and leaves the afternoon block alone. */
  lemma MorningBlockMisses(afternoon: Option<SlotList>)
    ensures SelectBlocks(["9:00 - 9:30"], Some(Forms([Candidate(Some("AM9:45"), true)])), afternoon, true)
      == Choice(NoSlot, [OpenBlock(Morning, true), Back(true)])
  {
    MorningRangeFlags();
    QuarterToTenNotBookable(true);
    LoneMorningFormMissed(["9:00 - 9:30"], Candidate(Some("AM9:45"), true), afternoon);
  }
}

=== FILE: clock.dfy ===
/** The Japan-local wall clock the crawler reads, as whole seconds since
    midnight, and the fixed instants of the clinic's daily opening. */
module Clock {

  const SecondsPerDay := 24 * 3600

  /** A `datetime.time` with whole seconds. */
  datatype TimeOfDay = TimeOfDay(hour: int, minute: int, second: int) {

    predicate Valid() {
      0 <= hour < 24 && 0 <= minute < 60 && 0 <= second < 60
    }

    function Seconds(): int {
      hour * 3600 + minute * 60 + second
    }

    /** Python compares `time` values field by field, hour first. */
    predicate AtOrBefore(other: TimeOfDay) {
      || hour < other.hour
      || (hour == other.hour && minute < other.minute)
      || (hour == other.hour && minute == other.minute && second <= other.second)
    }
  }

  /** The reading of the clock `n` seconds after midnight. */
  function FromSeconds(n: int): (t: TimeOfDay)
    requires 0 <= n < SecondsPerDay
    ensures t.Valid() && t.Seconds() == n
  {
    TimeOfDay(n / 3600, n % 3600 / 60, n % 60)
  }

  /** Comparing readings field by field is comparing seconds since midnight. */
  lemma OrderIsSecondsOrder(a: TimeOfDay, b: TimeOfDay)
    requires a.Valid() && b.Valid()
    ensures a.AtOrBefore(b) <==> a.Seconds() <= b.Seconds()
  {
    if a.hour < b.hour {
      assert a.Seconds() < (a.hour + 1) * 3600 <= b.Seconds();
    } else if b.hour < a.hour {
      assert b.Seconds() < (b.hour + 1) * 3600 <= a.Seconds();
    } else if a.minute < b.minute {
      assert a.Seconds() < a.hour * 3600 + (a.minute + 1) * 60 <= b.Seconds();
    } else if b.minute < a.minute {
      assert b.Seconds() < b.hour * 3600 + (b.minute + 1) * 60 <= a.Seconds();
    }
  }

  const WindowStart := TimeOfDay(5, 57, 0)
  const Opening := TimeOfDay(6, 0, 0)
  const Deadline := TimeOfDay(6, 5, 0)

  const OpeningSecond := Opening.Seconds()
  const DeadlineSecond := Deadline.Seconds()

  /** The pause between a failed check for open slots and the page reload. */
  const RetrySeconds := 10

  /** A run started inside the pre-opening window, both ends included,
      polls for the opening; any other run checks once. */
  predicate IsScheduledRun(now: TimeOfDay) {
    WindowStart.AtOrBefore(now) && now.AtOrBefore(Deadline)
  }

  /** The scheduled window is 05:57:00 through 06:05:00 inclusive. */
  lemma ScheduledWindow(n: int)
    requires 0 <= n < SecondsPerDay
    ensures IsScheduledRun(FromSeconds(n)) <==> 5 * 3600 + 57 * 60 <= n <= DeadlineSecond
  {
    OrderIsSecondsOrder(WindowStart, FromSeconds(n));
    OrderIsSecondsOrder(FromSeconds(n), Deadline);
  }

  lemma ScheduledWindowEdges()
    ensures IsScheduledRun(TimeOfDay(5, 57, 0)) && IsScheduledRun(TimeOfDay(6, 5, 0))
    ensures !IsScheduledRun(TimeOfDay(5, 56, 59)) && !IsScheduledRun(TimeOfDay(6, 5, 1))
  {
  }
}

=== FILE: opening.dfy ===
/** Waiting for the reservation table to open (`wait_for_reservation_opening`).
    The clock is whole seconds since midnight and moves only when the crawler
    sleeps or waits for a reload; the page is the sequence of answers it gives
    to successive looks. */
module Opening {
  import opened Python
  import opened Clock
  import opened Page

  /** What one look at the table finds. `Closed(settle)`: no block link yet,
      and the reload that follows takes `settle` seconds to show the table;
      more than the page wait's ten seconds and the wait raises.
      `Stalled`: no block link, and the reload never shows the table. */
  datatype Probe = Open | Closed(settle: nat) | Stalled

  /** The page wait's limit, in seconds, after which a reload counts as failed. */
  const PageWaitSeconds := 10

  /** The answer to the next look; a page that has run out of prepared
      answers stays closed and reloads at once. */
  function Next(probes: seq<Probe>): Probe {
    if probes == [] then Closed(0) else probes[0]
  }

  function Later(probes: seq<Probe>): seq<Probe> {
    if probes == [] then [] else probes[1..]
  }

  /** The page's answer to the look after the first `i`: the prepared
      answers in order, then a closed table that reloads at once. */
  function Answer(probes: seq<Probe>, i: nat): (p: Probe)
    ensures i == 0 ==> p == Next(probes)
  {
    if i < |probes| then probes[i] else Closed(0)
  }

  /** After the first look, the answers are the later ones. */
  lemma AnswerShift(probes: seq<Probe>, i: nat)
    requires i > 0
    ensures Answer(probes, i) == Answer(Later(probes), i - 1)
  {
  }

  /** The reload after a look with this answer shows the table within the page wait. */
  predicate Settles(p: Probe) {
    p.Closed? && p.settle <= PageWaitSeconds
  }

  /** The found flag of an action that is a look. */
  function LookFlag(x: Action): seq<bool> {
    if x.Look? then [x.found] else []
  }

  /** The settled flag of an action that is a reload. */
  function ReloadFlag(x: Action): seq<bool> {
    if x.Refresh? then [x.settled] else []
  }

  /** The found flags of the looks in a log, in order. */
  function Found(a: seq<Action>): seq<bool> {
    if a == [] then [] else LookFlag(a[0]) + Found(a[1..])
  }

  /** The settled flags of the reloads in a log, in order. */
  function Settled(a: seq<Action>): seq<bool> {
    if a == [] then [] else ReloadFlag(a[0]) + Settled(a[1..])
  }

  /** The last flag is set. */
  predicate EndsFound(f: seq<bool>) {
    f != [] && f[|f| - 1]
  }

  /** No flag but the last is set. */
  predicate NoneBeforeLast(f: seq<bool>) {
    forall i :: 0 <= i < |f| - 1 ==> !f[i]
  }

  /** A look that found nothing, in front of more looks. */
  lemma MissBefore(f: seq<bool>)
    ensures EndsFound([false] + f) <==> EndsFound(f)
    ensures NoneBeforeLast(f) ==> NoneBeforeLast([false] + f)
  {
    var g := [false] + f;
    if NoneBeforeLast(f) {
      forall i | 0 <= i < |g| - 1 ensures !g[i] {
        if i > 0 { assert g[i] == f[i - 1]; }
      }
    }
    if f != [] { assert g[|g| - 1] == f[|f| - 1]; }
  }

  /** The log reads the page: the i-th look found a link exactly when the
      page's i-th answer is `Open`, and the i-th reload settled exactly when
      that answer's reload shows the table in time. */
  predicate ReadsPage(a: seq<Action>, probes: seq<Probe>) {
    && (forall i: nat :: i < |Found(a)| ==> Found(a)[i] == (Answer(probes, i) == Open))
    && (forall i: nat :: i < |Settled(a)| ==> Settled(a)[i] == Settles(Answer(probes, i)))
  }

  lemma FoundAppend(a: seq<Action>, b: seq<Action>)
    ensures Found(a + b) == Found(a) + Found(b)
    ensures Settled(a + b) == Settled(a) + Settled(b)
  {
    LooksAppend(a, b);
    ReloadsAppend(a, b);
  }

  lemma {:induction false} LooksAppend(a: seq<Action>, b: seq<Action>)
    ensures Found(a + b) == Found(a) + Found(b)
    decreases |a|
  {
    if a == [] {
      assert a + b == b;
    } else {
      assert (a + b)[1..] == a[1..] + b;
      LooksAppend(a[1..], b);
      var h := LookFlag(a[0]);
      assert (a + b)[0] == a[0];
      assert Found(a) == h + Found(a[1..]) && Found(a + b) == h + Found(a[1..] + b);
      assert h + (Found(a[1..]) + Found(b)) == (h + Found(a[1..])) + Found(b);
    }
  }

  lemma {:induction false} ReloadsAppend(a: seq<Action>, b: seq<Action>)
    ensures Settled(a + b) == Settled(a) + Settled(b)
    decreases |a|
  {
    if a == [] {
      assert a + b == b;
    } else {
      assert (a + b)[1..] == a[1..] + b;
      ReloadsAppend(a[1..], b);
      var h := ReloadFlag(a[0]);
      assert (a + b)[0] == a[0];
      assert Settled(a) == h + Settled(a[1..]) && Settled(a + b) == h + Settled(a[1..] + b);
      assert h + (Settled(a[1..]) + Settled(b)) == (h + Settled(a[1..])) + Settled(b);
    }
  }

  /** A failed look with a reload that settled, in front of a log that reads
      the later answers, reads the page. */
  lemma RoundReads(now: int, probes: seq<Probe>, rest: seq<Action>)
    requires Settles(Next(probes)) && ReadsPage(rest, Later(probes))
    ensures Found(Round(now) + rest) == [false] + Found(rest)
    ensures ReadsPage(Round(now) + rest, probes)
  {
    var r := Round(now);
    FoundAppend(r, rest);
    RetryFlags(now, true);
    var a := r + rest;
    forall i: nat | i < |Found(a)| ensures Found(a)[i] == (Answer(probes, i) == Open) {
      if i > 0 { assert Found(a)[i] == Found(rest)[i - 1]; AnswerShift(probes, i); }
    }
    forall i: nat | i < |Settled(a)| ensures Settled(a)[i] == Settles(Answer(probes, i)) {
      if i > 0 { assert Settled(a)[i] == Settled(rest)[i - 1]; AnswerShift(probes, i); }
    }
  }

  /** The logs that end the polling read the page's first answer. */
  lemma EndReads(now: int, probes: seq<Probe>)
    ensures Next(probes) == Open ==> ReadsPage([Look(now, true)], probes)
    ensures !Settles(Next(probes)) && Next(probes) != Open ==>
      ReadsPage([Look(now, false), Sleep(RetrySeconds), Refresh(false)], probes)
    ensures Found([Look(now, true)]) == [true]
    ensures Found([Look(now, false), Sleep(RetrySeconds), Refresh(false)]) == [false]
  {
    RetryFlags(now, false);
    SingleFlags(Look(now, true));
  }

  /** A failed look and its retry: one look that found nothing, one reload. */
  lemma RetryFlags(now: int, settled: bool)
    ensures Found([Look(now, false), Sleep(RetrySeconds), Refresh(settled)]) == [false]
    ensures Settled([Look(now, false), Sleep(RetrySeconds), Refresh(settled)]) == [settled]
  {
    var x, y, z := Look(now, false), Sleep(RetrySeconds), Refresh(settled);
    SingleFlags(x);
    SingleFlags(y);
    SingleFlags(z);
    FoundAppend([y], [z]);
    assert [y] + [z] == [y, z];
    FoundAppend([x], [y, z]);
    assert [x] + [y, z] == [x, y, z];
  }

  lemma SingleFlags(x: Action)
    ensures Found([x]) == LookFlag(x) && Settled([x]) == ReloadFlag(x)
  {
    assert [x][1..] == [];
  }

  datatype WaitOutcome =
    | Opened
    | NotOpened
      /** The table did not come back after a reload: the page wait raises. */
    | ReloadTimeout
      /** The subtraction of an aware from a naive datetime raised TypeError. */
    | SubtractionTypeError

  datatype Wait = Wait(outcome: WaitOutcome, actions: seq<Action>, clock: int)

  /** Every look in `a` happened at a clock reading in `[lo, hi)`. */
  predicate LooksWithin(a: seq<Action>, lo: int, hi: int) {
    forall i :: 0 <= i < |a| && a[i].Look? ==> lo <= a[i].at < hi
  }

  /** A successful look can only be the last action. */
  predicate HitOnlyLast(a: seq<Action>) {
    forall i :: 0 <= i < |a| - 1 ==> !a[i].IsHit()
  }

  /** Every failed look is followed by one retry pause and one reload. */
  predicate RetryAfterMiss(a: seq<Action>) {
    forall i :: 0 <= i < |a| && a[i].IsMiss() ==>
      i + 2 < |a| && a[i + 1] == Sleep(RetrySeconds) && a[i + 2].Refresh?
  }

  /** Every pause follows a failed look, every reload follows a pause, and
      every look but the first follows a reload. */
  predicate OnlyRetries(a: seq<Action>) {
    && (forall i :: 0 <= i < |a| && a[i].Sleep? ==> i >= 1 && a[i - 1].IsMiss())
    && (forall i :: 0 <= i < |a| && a[i].Refresh? ==> i >= 1 && a[i - 1].Sleep?)
    && (forall i :: 1 <= i < |a| && a[i].Look? ==> a[i - 1].Refresh?)
  }

  /** One failed look and the retry that follows it. */
  function Round(now: int): seq<Action> {
    [Look(now, false), Sleep(RetrySeconds), Refresh(true)]
  }

  lemma RoundThenLooks(now: int, rest: seq<Action>)
    requires now < DeadlineSecond
    requires LooksWithin(rest, now + RetrySeconds, DeadlineSecond)
    ensures LooksWithin(Round(now) + rest, now, DeadlineSecond)
  {
    var a := Round(now) + rest;
    forall i | 0 <= i < |a| && a[i].Look? ensures now <= a[i].at < DeadlineSecond {
      if i >= 3 { assert a[i] == rest[i - 3]; }
    }
  }

  lemma RoundThenHits(now: int, rest: seq<Action>)
    requires HitOnlyLast(rest)
    ensures HitOnlyLast(Round(now) + rest)
    ensures var a := Round(now) + rest;
      a[|a| - 1] == (if rest == [] then Refresh(true) else rest[|rest| - 1])
  {
    var a := Round(now) + rest;
    forall i | 0 <= i < |a| - 1 ensures !a[i].IsHit() {
      if i >= 3 { assert a[i] == rest[i - 3]; }
    }
  }

  lemma RoundThenRetries(now: int, rest: seq<Action>)
    requires RetryAfterMiss(rest)
    ensures RetryAfterMiss(Round(now) + rest)
  {
    var a := Round(now) + rest;
    forall i | 0 <= i < |a| && a[i].IsMiss()
      ensures i + 2 < |a| && a[i + 1] == Sleep(RetrySeconds) && a[i + 2].Refresh?
    {
      if i >= 3 {
        assert a[i] == rest[i - 3] && a[i + 1] == rest[i - 2] && a[i + 2] == rest[i - 1];
      }
    }
  }

  lemma RoundThenOnlyRetries(now: int, rest: seq<Action>)
    requires OnlyRetries(rest)
    requires rest != [] ==> rest[0].Look?
    ensures OnlyRetries(Round(now) + rest)
  {
    var a := Round(now) + rest;
    forall i | 0 <= i < |a| && a[i].Sleep? ensures i >= 1 && a[i - 1].IsMiss() {
      if i >= 3 { assert a[i] == rest[i - 3]; if i >= 4 { assert a[i - 1] == rest[i - 4]; } }
    }
    forall i | 0 <= i < |a| && a[i].Refresh? ensures i >= 1 && a[i - 1].Sleep? {
      if i >= 3 { assert a[i] == rest[i - 3]; if i >= 4 { assert a[i - 1] == rest[i - 4]; } }
    }
    forall i | 1 <= i < |a| && a[i].Look? ensures a[i - 1].Refresh? {
      if i >= 3 { assert a[i] == rest[i - 3]; if i >= 4 { assert a[i - 1] == rest[i - 4]; } }
    }
  }

  /** The shape every polling log from clock reading `now` has: looks only
      before 06:05, a successful look only at the end, a pause and a reload
      after every failed look and nowhere else. */
  predicate PollShape(a: seq<Action>, now: int) {
    && LooksWithin(a, now, DeadlineSecond)
    && HitOnlyLast(a) && RetryAfterMiss(a) && OnlyRetries(a)
    && (a != [] ==> a[0].Look?)
    && InStage(a, WaitStage)
  }

  /** What the last action of a polling log says about how it ended. */
  function LastAction(a: seq<Action>): Option<Action> {
    if a == [] then None else Some(a[|a| - 1])
  }

  lemma RoundShape(now: int, rest: seq<Action>)
    requires now < DeadlineSecond
    requires PollShape(rest, now + RetrySeconds)
    ensures PollShape(Round(now) + rest, now)
  {
    RoundThenLooks(now, rest);
    RoundThenHits(now, rest);
    RoundThenRetries(now, rest);
    RoundThenOnlyRetries(now, rest);
    JoinStage(Round(now), rest, WaitStage);
  }

  /** A round in front of a log ends the way the log does, or with the
      round's reload when the log is empty. */
  lemma RoundLast(now: int, rest: seq<Action>)
    ensures LastAction(Round(now) + rest) == (if rest == [] then Some(Refresh(true)) else LastAction(rest))
  {
    if rest != [] { assert (Round(now) + rest)[|Round(now) + rest| - 1] == rest[|rest| - 1]; }
  }

  lemma LaterShape(a: seq<Action>, now: int, later: int)
    requires now <= later && PollShape(a, later)
    ensures PollShape(a, now)
  {
  }

  /** A round whose reload took `settle` seconds, in front of polling from
      after the pause and the reload, has the loop's shape. */
  lemma SettledRoundShape(now: int, settle: nat, rest: seq<Action>)
    requires now < DeadlineSecond
    ensures PollShape(rest, now + RetrySeconds + settle) ==> PollShape(Round(now) + rest, now)
  {
    if PollShape(rest, now + RetrySeconds + settle) {
      LaterShape(rest, now + RetrySeconds, now + RetrySeconds + settle);
      RoundShape(now, rest);
    }
  }

  lemma EndShapes(now: int)
    requires now < DeadlineSecond
    ensures PollShape([Look(now, true)], now)
    ensures PollShape([Look(now, false), Sleep(RetrySeconds), Refresh(false)], now)
  {
    var a := [Look(now, false), Sleep(RetrySeconds), Refresh(false)];
    assert RetryAfterMiss(a) by {
      forall i | 0 <= i < |a| && a[i].IsMiss() ensures i == 0 { }
    }
  }

  /** The polling loop from clock reading `now` until 06:05. */
  function Poll(now: int, probes: seq<Probe>): (w: Wait)
    ensures w.clock >= now
    ensures w.outcome == Opened <==> LastAction(w.actions).Some? && LastAction(w.actions).value.IsHit()
    ensures w.outcome == ReloadTimeout <==> LastAction(w.actions) == Some(Refresh(false))
    ensures w.outcome == NotOpened ==> w.clock >= DeadlineSecond
    ensures w.outcome != SubtractionTypeError
    decreases DeadlineSecond - now
  {
    if now >= DeadlineSecond then Wait(NotOpened, [], now)
    else
      match Next(probes)
      case Open =>
        Wait(Opened, [Look(now, true)], now)
      case Stalled =>
        Wait(ReloadTimeout, [Look(now, false), Sleep(RetrySeconds), Refresh(false)],
             now + RetrySeconds + PageWaitSeconds)
      case Closed(settle) =>
        if settle > PageWaitSeconds then
          Wait(ReloadTimeout, [Look(now, false), Sleep(RetrySeconds), Refresh(false)],
               now + RetrySeconds + PageWaitSeconds)
        else
          var rest := Poll(now + RetrySeconds + settle, Later(probes));
          RoundLast(now, rest.actions);
          Wait(rest.outcome, Round(now) + rest.actions, rest.clock)
  }

  /** `wait_for_reservation_opening` as its docstring and its log message at
      crawler.py:51-62 intend it: a scheduled run sleeps until 06:00 and then
      polls; any other run looks once. */
  function WaitForReservationOpening(scheduled: bool, now: int, probes: seq<Probe>): (w: Wait)
    ensures w.outcome != SubtractionTypeError
    ensures !scheduled ==>
      && w.actions == [Look(now, Next(probes) == Open)]
      && (w.outcome == Opened <==> Next(probes) == Open)
    ensures scheduled && now < OpeningSecond ==>
      && |w.actions| > 1 && w.actions[0] == Sleep(OpeningSecond - now)
      && w.actions[1] == Look(OpeningSecond, Next(probes) == Open)
      && PollShape(w.actions[1..], OpeningSecond)
    ensures scheduled && now >= OpeningSecond ==> PollShape(w.actions, now)
    ensures scheduled && OpeningSecond <= now < DeadlineSecond ==>
      w.actions != [] && w.actions[0] == Look(now, Next(probes) == Open)
    ensures w.outcome == Opened <==> LastAction(w.actions).Some? && LastAction(w.actions).value.IsHit()
    ensures InStage(w.actions, WaitStage)
  {
    if !scheduled then
      Wait(if Next(probes) == Open then Opened else NotOpened, [Look(now, Next(probes) == Open)], now)
    else if now < OpeningSecond then
      var w := Poll(OpeningSecond, probes);
      PollHasShape(OpeningSecond, probes);
      var sleep := [Sleep(OpeningSecond - now)];
      var a := sleep + w.actions;
      assert a[1..] == w.actions;
      JoinStage(sleep, w.actions, WaitStage);
      assert LastAction(a) == LastAction(w.actions);
      Wait(w.outcome, a, w.clock)
    else
      PollHasShape(now, probes);
      Poll(now, probes)
  }

  /** The wait read the page: its looks and reloads report the page's
      answers in order, and it opened exactly when its last look found a
      link, no earlier look having found one. */
  predicate ReadsAnswers(w: Wait, probes: seq<Probe>) {
    && ReadsPage(w.actions, probes)
    && (w.outcome == Opened <==> EndsFound(Found(w.actions)))
    && NoneBeforeLast(Found(w.actions))
  }

  /** The polling loop reads the page. */
  lemma {:induction false} PollReadsPage(now: int, probes: seq<Probe>)
    ensures ReadsAnswers(Poll(now, probes), probes)
    decreases DeadlineSecond - now, 1
  {
    if now >= DeadlineSecond {
      PollAtDeadline(now, probes);
    } else if Settles(Next(probes)) {
      PollRoundReads(now, probes);
    } else {
      PollEndReads(now, probes);
    }
  }

  /** A round that settles, in front of polling that reads the later answers,
      reads the page. */
  lemma {:induction false} PollRoundReads(now: int, probes: seq<Probe>)
    requires now < DeadlineSecond && Settles(Next(probes))
    ensures ReadsAnswers(Poll(now, probes), probes)
    decreases DeadlineSecond - now, 0
  {
    var settle := Next(probes).settle;
    PollReadsPage(now + RetrySeconds + settle, Later(probes));
    RoundStepReads(Poll(now, probes), Poll(now + RetrySeconds + settle, Later(probes)), now, probes);
  }

  /** Polling that ends after one look reads the page. */
  lemma PollEndReads(now: int, probes: seq<Probe>)
    requires now < DeadlineSecond && !Settles(Next(probes))
    ensures ReadsAnswers(Poll(now, probes), probes)
  {
    PollEnds(now, probes);
    EndReads(now, probes);
  }

  /** A round in front of a wait that reads the later answers gives a wait
      that reads the page. */
  lemma RoundStepReads(w: Wait, rest: Wait, now: int, probes: seq<Probe>)
    ensures && Settles(Next(probes))
            && w == Wait(rest.outcome, Round(now) + rest.actions, rest.clock)
            && ReadsAnswers(rest, Later(probes))
            ==> ReadsAnswers(w, probes)
  {
    if && Settles(Next(probes))
       && w == Wait(rest.outcome, Round(now) + rest.actions, rest.clock)
       && ReadsAnswers(rest, Later(probes))
    {
      RoundReads(now, probes, rest.actions);
      MissBefore(Found(rest.actions));
    }
  }

  /** An open table, or a reload that does not show the table in time, ends
      the polling after one look. */
  lemma PollEnds(now: int, probes: seq<Probe>)
    requires now < DeadlineSecond && !Settles(Next(probes))
    ensures Poll(now, probes) == if Next(probes) == Open then Wait(Opened, [Look(now, true)], now)
      else Wait(ReloadTimeout, [Look(now, false), Sleep(RetrySeconds), Refresh(false)],
                now + RetrySeconds + PageWaitSeconds)
  {
  }

  /** Polling before 06:05 starts with a look that reports the page's first answer. */
  lemma PollFirstLook(now: int, probes: seq<Probe>)
    requires now < DeadlineSecond
    ensures Poll(now, probes).actions != [] && Poll(now, probes).actions[0] == Look(now, Next(probes) == Open)
  {
    if Settles(Next(probes)) {
      ClosedStep(now, probes, Next(probes).settle);
    } else {
      PollEnds(now, probes);
    }
  }

  /** How long a look with this answer and what follows it take: nothing
      when the table is open; otherwise the ten-second pause, then the reload,
      which the page wait gives up on after ten seconds. */
  function RoundSeconds(p: Probe): nat {
    if p == Open then 0
    else RetrySeconds + (if Settles(p) then p.settle else PageWaitSeconds)
  }

  function LookTime(x: Action): seq<int> {
    if x.Look? then [x.at] else []
  }

  /** The clock readings of the looks in a log, in order. */
  function LookTimes(a: seq<Action>): seq<int> {
    if a == [] then [] else LookTime(a[0]) + LookTimes(a[1..])
  }

  lemma {:induction false} LookTimesAppend(a: seq<Action>, b: seq<Action>)
    ensures LookTimes(a + b) == LookTimes(a) + LookTimes(b)
    decreases |a|
  {
    if a == [] {
      assert a + b == b;
    } else {
      assert (a + b)[1..] == a[1..] + b;
      LookTimesAppend(a[1..], b);
      var h := LookTime(a[0]);
      assert (a + b)[0] == a[0];
      assert LookTimes(a) == h + LookTimes(a[1..]) && LookTimes(a + b) == h + LookTimes(a[1..] + b);
      assert h + (LookTimes(a[1..]) + LookTimes(b)) == (h + LookTimes(a[1..])) + LookTimes(b);
    }
  }

  /** The looks at clock readings `times` kept the loop's pace from `now`:
      the first look at `now`, each later look as long after the one before
      as that look's round took, and the final clock as long after the last
      look as its round took. Without a look, the clock did not move. */
  predicate Paced(times: seq<int>, now: int, probes: seq<Probe>, clock: int) {
    if times == [] then clock == now
    else
      && times[0] == now
      && (forall j :: 0 <= j < |times| - 1 ==> times[j + 1] == times[j] + RoundSeconds(Answer(probes, j)))
      && clock == times[|times| - 1] + RoundSeconds(Answer(probes, |times| - 1))
  }

  /** A settled round at `now` in front of polling paced from after it keeps the pace. */
  lemma PacedStep(times: seq<int>, now: int, probes: seq<Probe>, clock: int)
    requires Settles(Next(probes))
    requires Paced(times, now + RoundSeconds(Next(probes)), Later(probes), clock)
    ensures Paced([now] + times, now, probes, clock)
  {
    var t := [now] + times;
    if times != [] {
      forall j | 0 <= j < |t| - 1 ensures t[j + 1] == t[j] + RoundSeconds(Answer(probes, j)) {
        if j > 0 {
          assert t[j + 1] == times[j] && t[j] == times[j - 1];
          AnswerShift(probes, j);
        }
      }
      assert t[|t| - 1] == times[|times| - 1];
      AnswerShift(probes, |t| - 1);
    }
  }

  /** Polling keeps the loop's pace: each look comes ten seconds plus the
      reload's time after the one before, and the reported clock is the last
      look's time plus its round's. So a poll that gives up at 06:05 or later
      has really used the time up. */
  lemma {:induction false} PollPaced(now: int, probes: seq<Probe>)
    ensures Paced(LookTimes(Poll(now, probes).actions), now, probes, Poll(now, probes).clock)
    decreases DeadlineSecond - now
  {
    if now >= DeadlineSecond {
      PollAtDeadline(now, probes);
    } else if Settles(Next(probes)) {
      var later := now + RetrySeconds + Next(probes).settle;
      ClosedStep(now, probes, Next(probes).settle);
      PollPaced(later, Later(probes));
      RoundStepPaced(Poll(now, probes), Poll(later, Later(probes)), now, probes);
    } else {
      PollEnds(now, probes);
      EndTimes(now);
    }
  }

  /** A settled round in front of a wait paced from after it gives a paced wait. */
  lemma RoundStepPaced(w: Wait, rest: Wait, now: int, probes: seq<Probe>)
    requires Settles(Next(probes))
    requires w == Wait(rest.outcome, Round(now) + rest.actions, rest.clock)
    requires Paced(LookTimes(rest.actions), now + RoundSeconds(Next(probes)), Later(probes), rest.clock)
    ensures Paced(LookTimes(w.actions), now, probes, w.clock)
  {
    LookTimesAppend(Round(now), rest.actions);
    RoundTimes(now);
    PacedStep(LookTimes(rest.actions), now, probes, rest.clock);
  }

  lemma RoundTimes(now: int)
    ensures LookTimes(Round(now)) == [now]
  {
    ThreeTimes(Look(now, false), Sleep(RetrySeconds), Refresh(true));
  }

  lemma EndTimes(now: int)
    ensures LookTimes([Look(now, true)]) == [now]
    ensures LookTimes([Look(now, false), Sleep(RetrySeconds), Refresh(false)]) == [now]
  {
    ThreeTimes(Look(now, false), Sleep(RetrySeconds), Refresh(false));
    assert [Look(now, true)][1..] == [];
  }

  lemma ThreeTimes(x: Action, y: Action, z: Action)
    ensures LookTimes([x, y, z]) == LookTime(x) + LookTime(y) + LookTime(z)
  {
    assert [z][1..] == [];
    assert LookTimes([z]) == LookTime(z);
    assert [y, z][1..] == [z];
    assert LookTimes([y, z]) == LookTime(y) + LookTime(z);
    assert [x, y, z][1..] == [y, z];
  }

  /** The whole wait keeps time: a run-now look leaves the clock where it
      was, and a scheduled run's polling keeps the loop's pace from 06:00,
      or from when it starts if that is later. */
  lemma WaitPaced(scheduled: bool, now: int, probes: seq<Probe>)
    ensures var w := WaitForReservationOpening(scheduled, now, probes);
      && (!scheduled ==> LookTimes(w.actions) == [now] && w.clock == now)
      && (scheduled && now < OpeningSecond ==> Paced(LookTimes(w.actions), OpeningSecond, probes, w.clock))
      && (scheduled && now >= OpeningSecond ==> Paced(LookTimes(w.actions), now, probes, w.clock))
  {
    if !scheduled {
      var x := Look(now, Next(probes) == Open);
      assert [x][1..] == [];
    } else if now < OpeningSecond {
      PollPaced(OpeningSecond, probes);
      EarlyWait(now, probes);
      SleepThenPaced(WaitForReservationOpening(true, now, probes), Poll(OpeningSecond, probes), OpeningSecond - now, probes);
    } else {
      PollPaced(now, probes);
      LateWait(now, probes);
    }
  }

  /** The sleep until 06:00 holds no look, so the wait keeps the pace its polling keeps. */
  lemma SleepThenPaced(w: Wait, p: Wait, pause: int, probes: seq<Probe>)
    requires w == Wait(p.outcome, [Sleep(pause)] + p.actions, p.clock)
    requires Paced(LookTimes(p.actions), OpeningSecond, probes, p.clock)
    ensures Paced(LookTimes(w.actions), OpeningSecond, probes, w.clock)
  {
    LookTimesAppend([Sleep(pause)], p.actions);
    assert [Sleep(pause)][1..] == [];
    assert LookTimes([Sleep(pause)]) == [];
  }

  /** The whole wait reads the page: a run-now look reports the first
      answer, and a scheduled run's looks and reloads report the answers in
      order. */
  lemma WaitReadsPage(scheduled: bool, now: int, probes: seq<Probe>)
    ensures ReadsAnswers(WaitForReservationOpening(scheduled, now, probes), probes)
  {
    if !scheduled {
      RunNowReads(now, probes);
    } else if now < OpeningSecond {
      PollReadsPage(OpeningSecond, probes);
      EarlyWait(now, probes);
      SleepThenReads(WaitForReservationOpening(true, now, probes), Poll(OpeningSecond, probes), OpeningSecond - now, probes);
    } else {
      PollReadsPage(now, probes);
      LateWait(now, probes);
    }
  }

  /** A scheduled run that starts at 06:00 or later polls at once. */
  lemma LateWait(now: int, probes: seq<Probe>)
    requires now >= OpeningSecond
    ensures WaitForReservationOpening(true, now, probes) == Poll(now, probes)
  {
  }

  /** A run-now look reads the page's first answer. */
  lemma RunNowReads(now: int, probes: seq<Probe>)
    ensures ReadsAnswers(WaitForReservationOpening(false, now, probes), probes)
  {
    var w := WaitForReservationOpening(false, now, probes);
    SingleFlags(Look(now, Next(probes) == Open));
    assert Found(w.actions) == [Next(probes) == Open] && Settled(w.actions) == [];
  }

  /** The sleep until 06:00 reports nothing, so an early scheduled run reads
      the page when its polling does. */
  lemma SleepThenReads(w: Wait, p: Wait, pause: int, probes: seq<Probe>)
    requires w == Wait(p.outcome, [Sleep(pause)] + p.actions, p.clock)
    requires ReadsAnswers(p, probes)
    ensures ReadsAnswers(w, probes)
  {
    var sleep := [Sleep(pause)];
    SingleFlags(Sleep(pause));
    FoundAppend(sleep, p.actions);
    assert w.actions == sleep + p.actions;
    assert Found(w.actions) == [] + Found(p.actions) == Found(p.actions);
    assert Settled(w.actions) == [] + Settled(p.actions) == Settled(p.actions);
  }

  /** A scheduled run that starts before 06:00 sleeps until then and polls. */
  lemma EarlyWait(now: int, probes: seq<Probe>)
    requires now < OpeningSecond
    ensures var p := Poll(OpeningSecond, probes);
      WaitForReservationOpening(true, now, probes) == Wait(p.outcome, [Sleep(OpeningSecond - now)] + p.actions, p.clock)
  {
  }

  /** `wait_for_reservation_opening` as written: before 06:00 a scheduled run
      subtracts the zone-aware current time from the zone-less opening time,
      which raises TypeError before any look. */
  function WaitAsWritten(scheduled: bool, now: int, probes: seq<Probe>): (w: Wait)
    ensures scheduled && now < OpeningSecond ==> w == Wait(SubtractionTypeError, [], now)
    ensures !(scheduled && now < OpeningSecond) ==> w == WaitForReservationOpening(scheduled, now, probes)
  {
    if scheduled && now < OpeningSecond then Wait(SubtractionTypeError, [], now)
    else WaitForReservationOpening(scheduled, now, probes)
  }

  /** Which wait a run performs: the one written in the crawler, or the one
      its docstring and log message at crawler.py:51-62 intend. */
  datatype WaitVersion = AsWritten | Intended

  function WaitBy(version: WaitVersion, scheduled: bool, now: int, probes: seq<Probe>): Wait {
    match version
    case AsWritten => WaitAsWritten(scheduled, now, probes)
    case Intended => WaitForReservationOpening(scheduled, now, probes)
  }

  /** A run polling from 06:05:00 or later gives up at once, without a look. */
  lemma PollAtDeadline(now: int, probes: seq<Probe>)
    requires now >= DeadlineSecond
    ensures Poll(now, probes) == Wait(NotOpened, [], now)
  {
  }

  /** Every polling log has the loop's shape: looks only from `now` until
      06:05, a successful look only at the end, and a pause and a reload
      after every failed look and nowhere else. */
  lemma {:induction false} PollHasShape(now: int, probes: seq<Probe>)
    ensures PollShape(Poll(now, probes).actions, now)
    decreases DeadlineSecond - now
  {
    if now >= DeadlineSecond {
      PollAtDeadline(now, probes);
    } else if Settles(Next(probes)) {
      var settle := Next(probes).settle;
      var rest := Poll(now + RetrySeconds + settle, Later(probes));
      PollHasShape(now + RetrySeconds + settle, Later(probes));
      SettledRoundShape(now, settle, rest.actions);
    } else {
      PollEnds(now, probes);
      EndShapes(now);
    }
  }

  /** A table that never opens and always reloads at once is reloaded once
      every ten seconds until 06:05: thirty times from 06:00. */
  lemma {:induction false} ClosedTableReloads(now: int, k: nat)
    requires now == DeadlineSecond - 10 * k
    ensures
      var w := Poll(now, []);
      w.outcome == NotOpened && w.clock == DeadlineSecond && |w.actions| == 3 * k
    decreases k
  {
    if k == 0 {
      PollAtDeadline(now, []);
    } else {
      assert Next([]) == Closed(0) && Later([]) == [];
      assert now + RetrySeconds == DeadlineSecond - 10 * (k - 1);
      ClosedTableReloads(now + RetrySeconds, k - 1);
      ClosedStep(now, [], 0);
      RoundCounts(Poll(now, []), Poll(now + RetrySeconds, []), now, k);
    }
  }

  /** One more round adds three actions and leaves the outcome and the clock. */
  lemma RoundCounts(w: Wait, rest: Wait, now: int, k: nat)
    ensures && k > 0 && w == Wait(rest.outcome, Round(now) + rest.actions, rest.clock)
            && rest.outcome == NotOpened && rest.clock == DeadlineSecond && |rest.actions| == 3 * (k - 1)
            ==> w.outcome == NotOpened && w.clock == DeadlineSecond && |w.actions| == 3 * k
  {
  }

  /** A closed table whose reload settles in time costs one round, and
      polling goes on from after the pause and the reload. */
  lemma ClosedStep(now: int, probes: seq<Probe>, settle: nat)
    requires now < DeadlineSecond && Next(probes) == Closed(settle) && settle <= PageWaitSeconds
    ensures var rest := Poll(now + RetrySeconds + settle, Later(probes));
      Poll(now, probes) == Wait(rest.outcome, Round(now) + rest.actions, rest.clock)
  {
  }

  lemma ClosedTableFromOpening()
    ensures Poll(OpeningSecond, []).outcome == NotOpened
    ensures |Poll(OpeningSecond, []).actions| == 3 * 30
  {
    ClosedTableReloads(OpeningSecond, 30);
  }

  /** A table that is open at the first look ends the wait at once. */
  lemma OpenAtFirstLook(now: int, probes: seq<Probe>)
    requires now < DeadlineSecond && Next(probes) == Open
    ensures Poll(now, probes) == Wait(Opened, [Look(now, true)], now)
  {
  }

  /** The failing input of the as-written wait: a scheduled run that reaches
      the wait at 05:58:30 raises instead of sleeping 90 seconds. */
  lemma EarlyScheduledRunRaises(probes: seq<Probe>)
    ensures WaitAsWritten(true, 5 * 3600 + 58 * 60 + 30, probes).outcome == SubtractionTypeError
    ensures WaitAsWritten(true, 5 * 3600 + 58 * 60 + 30, probes).actions == []
    ensures WaitForReservationOpening(true, 5 * 3600 + 58 * 60 + 30, probes).actions[0] == Sleep(90)
  {
  }
}

=== FILE: page.dfy ===
/** What the crawler does to the browser session, as a log of actions. The
    clinic's pages are abstract: each action records what the page answered. */
module Page {

  /** The two appointment blocks of the reservation table. */
  datatype Block = Morning | Afternoon

  /** A field of the details form. */
  datatype Field = PatientName | Symptoms

  datatype Action =
    | StartDriver
      /** The login and navigation steps before the reservation table. */
    | SignIn(completed: bool)
      /** Suspending for `seconds` seconds. */
    | Sleep(seconds: int)
      /** Looking for a link into either block, at clock reading `at`. */
    | Look(at: int, found: bool)
      /** Reloading the table page; `settled` when the table came back in time. */
    | Refresh(settled: bool)
      /** Clicking the link into a block, when there is one. */
    | OpenBlock(block: Block, present: bool)
      /** Clicking the booking link of the `index`-th time-slot form of a block. */
    | ClickSlot(block: Block, index: nat)
      /** Going back to the table; `settled` when it came back in time. */
    | Back(settled: bool)
    | Fill(field: Field, text: string)
    | SubmitDetails
    | Register
    | QuitDriver
  {
    predicate IsHit() {
      Look? && found
    }

    predicate IsMiss() {
      Look? && !found
    }
  }

  /** The phase of a run each action belongs to, in the order the phases come. */
  function Stage(a: Action): nat {
    match a
    case StartDriver => 0
    case SignIn(_) => 1
    case Sleep(_) => WaitStage
    case Look(_, _) => WaitStage
    case Refresh(_) => WaitStage
    case OpenBlock(_, _) => BlockStage
    case ClickSlot(_, _) => BlockStage
    case Back(_) => BlockStage
    case Fill(_, _) => DetailsStage
    case SubmitDetails => DetailsStage
    case Register => DetailsStage
    case QuitDriver => 5
  }

  const WaitStage := 2
  const BlockStage := 3
  const DetailsStage := 4

  predicate InStage(a: seq<Action>, k: nat) {
    forall i :: 0 <= i < |a| ==> Stage(a[i]) == k
  }

  /** Every action of `a` belongs to a phase from `lo` to `hi`. */
  predicate StagesBetween(a: seq<Action>, lo: nat, hi: nat) {
    forall i :: 0 <= i < |a| ==> lo <= Stage(a[i]) <= hi
  }

  /** The actions of `a` come phase by phase: no action belongs to an
      earlier phase than the one before it. */
  predicate InOrder(a: seq<Action>) {
    forall i :: 0 < i < |a| ==> Stage(a[i - 1]) <= Stage(a[i])
  }

  /** The actions of a single phase are in phase order. */
  lemma SingleStage(a: seq<Action>, k: nat)
    requires InStage(a, k)
    ensures InOrder(a) && StagesBetween(a, k, k)
  {
  }

  /** Two logs in phase order, the second one's phases after the first one's,
      make one log in phase order. */
  lemma Concat(a: seq<Action>, b: seq<Action>, lo: nat, mid: nat, hi: nat)
    requires lo <= mid <= hi
    requires InOrder(a) && StagesBetween(a, lo, mid)
    requires InOrder(b) && StagesBetween(b, mid, hi)
    ensures InOrder(a + b) && StagesBetween(a + b, lo, hi)
    ensures CountClicks(a + b) == CountClicks(a) + CountClicks(b)
  {
    var c := a + b;
    forall i | 0 < i < |c| ensures Stage(c[i - 1]) <= Stage(c[i]) {
      if i > |a| {
        assert c[i - 1] == b[i - 1 - |a|] && c[i] == b[i - |a|];
      } else if i == |a| {
        assert c[i - 1] == a[i - 1] && c[i] == b[0];
      } else {
        assert c[i - 1] == a[i - 1] && c[i] == a[i];
      }
    }
    forall i | 0 <= i < |c| ensures lo <= Stage(c[i]) <= hi {
      if i >= |a| { assert c[i] == b[i - |a|]; } else { assert c[i] == a[i]; }
    }
    CountClicksAppend(a, b);
  }

  lemma JoinStage(a: seq<Action>, b: seq<Action>, k: nat)
    requires InStage(a, k) && InStage(b, k)
    ensures InStage(a + b, k)
  {
    var c := a + b;
    forall i | 0 <= i < |c| ensures Stage(c[i]) == k {
      if i >= |a| { assert c[i] == b[i - |a|]; }
    }
  }

  function CountClicks(a: seq<Action>): (n: nat)
    ensures n <= |a|
  {
    if a == [] then 0 else (if a[0].ClickSlot? then 1 else 0) + CountClicks(a[1..])
  }

  lemma {:induction false} CountClicksAppend(a: seq<Action>, b: seq<Action>)
    ensures CountClicks(a + b) == CountClicks(a) + CountClicks(b)
    decreases |a|
  {
    if a == [] {
      assert a + b == b;
    } else {
      assert (a + b)[1..] == a[1..] + b;
      CountClicksAppend(a[1..], b);
    }
  }

  /** No click appears in a log exactly when it counts none. */
  lemma {:induction false} NoClicks(a: seq<Action>)
    ensures CountClicks(a) == 0 <==> forall i :: 0 <= i < |a| ==> !a[i].ClickSlot?
    decreases |a|
  {
    if a != [] {
      NoClicks(a[1..]);
      if CountClicks(a) == 0 {
        forall i | 0 <= i < |a| ensures !a[i].ClickSlot? {
          if i > 0 { assert a[i] == a[1..][i - 1]; }
        }
      }
    }
  }

  /** A log of a single phase other than the blocks phase has no click. */
  lemma NoClicksOutsideBlocks(a: seq<Action>, k: nat)
    requires InStage(a, k) && k != BlockStage
    ensures CountClicks(a) == 0
  {
    NoClicks(a);
  }

  /** How often the log looks for the link into block `b`. */
  function CountOpens(a: seq<Action>, b: Block): (n: nat)
    ensures n <= |a|
  {
    if a == [] then 0 else (if a[0].OpenBlock? && a[0].block == b then 1 else 0) + CountOpens(a[1..], b)
  }

  lemma {:induction false} CountOpensAppend(a: seq<Action>, c: seq<Action>, b: Block)
    ensures CountOpens(a + c, b) == CountOpens(a, b) + CountOpens(c, b)
    decreases |a|
  {
    if a == [] {
      assert a + c == c;
    } else {
      assert (a + c)[1..] == a[1..] + c;
      CountOpensAppend(a[1..], c, b);
    }
  }
}

=== FILE: python.dfy ===
/** The few Python built-ins the crawler relies on, with the behaviour CPython
    gives them: `str.strip`, `str.upper`, `str.split`, `str(n)`, `int(text)`,
    and the ValueError that parsing raises. */
module Python {

  datatype Option<+T> = None | Some(value: T)

  /** The outcome of a call that either returns a value or raises ValueError. */
  datatype Result<+T> = Ok(value: T) | ValueError

  /** `str.isspace` for one character: the characters Python treats as
      whitespace (the Unicode Zs category and the WS/B/S bidirectional classes). */
  predicate IsSpace(c: char) {
    || '\U{9}' <= c <= '\U{D}'
    || '\U{1C}' <= c <= '\U{20}'
    || c == '\U{85}' || c == '\U{A0}' || c == '\U{1680}'
    || '\U{2000}' <= c <= '\U{200A}'
    || c == '\U{2028}' || c == '\U{2029}' || c == '\U{202F}'
    || c == '\U{205F}' || c == '\U{3000}'
  }

  predicate NoSpace(s: string) {
    forall i :: 0 <= i < |s| ==> !IsSpace(s[i])
  }

  predicate AllSpace(s: string) {
    forall i :: 0 <= i < |s| ==> IsSpace(s[i])
  }

  function StripLeading(s: string): (r: string)
    ensures |r| <= |s|
    ensures r == [] || !IsSpace(r[0])
  {
    if |s| > 0 && IsSpace(s[0]) then StripLeading(s[1..]) else s
  }

  /** What `StripLeading` removes is a run of whitespace at the front. */
  lemma {:induction false} StripLeadingRemovesSpace(s: string)
    ensures var r := StripLeading(s); r == s[|s| - |r|..] && AllSpace(s[..|s| - |r|])
    decreases |s|
  {
    if |s| > 0 && IsSpace(s[0]) {
      StripLeadingRemovesSpace(s[1..]);
      DropLeadingSpace(s, StripLeading(s[1..]));
    } else {
      assert s[..0] == [];
    }
  }

  lemma DropLeadingSpace(s: string, r: string)
    requires |s| > 0 && IsSpace(s[0]) && |r| < |s|
    requires r == s[1..][|s| - 1 - |r|..] && AllSpace(s[1..][..|s| - 1 - |r|])
    ensures r == s[|s| - |r|..] && AllSpace(s[..|s| - |r|])
  {
    var k := |s| - |r|;
    assert s[1..][k - 1..] == s[k..];
    forall i | 0 <= i < k ensures IsSpace(s[..k][i]) {
      if i > 0 {
        assert s[..k][i] == s[1..][..k - 1][i - 1];
      }
    }
  }

  function StripTrailing(s: string): (r: string)
    ensures |r| <= |s| && r == s[..|r|]
    ensures r == [] || !IsSpace(r[|r| - 1])
  {
    if |s| > 0 && IsSpace(s[|s| - 1]) then StripTrailing(s[..|s| - 1]) else s
  }

  /** What `StripTrailing` removes is a run of whitespace at the end. */
  lemma {:induction false} StripTrailingRemovesSpace(s: string)
    ensures AllSpace(s[|StripTrailing(s)|..])
    decreases |s|
  {
    if |s| > 0 && IsSpace(s[|s| - 1]) {
      StripTrailingRemovesSpace(s[..|s| - 1]);
      DropTrailingSpace(s, StripTrailing(s[..|s| - 1]));
    } else {
      assert s[|s|..] == [];
    }
  }

  lemma DropTrailingSpace(s: string, r: string)
    requires |s| > 0 && IsSpace(s[|s| - 1]) && |r| < |s|
    requires AllSpace(s[..|s| - 1][|r|..])
    ensures AllSpace(s[|r|..])
  {
    forall i | 0 <= i < |s| - |r| ensures IsSpace(s[|r|..][i]) {
      if i < |s| - 1 - |r| {
        assert s[|r|..][i] == s[..|s| - 1][|r|..][i];
      }
    }
  }

  /** `s.strip()`: the text left after removing whitespace from both ends. */
  function Strip(s: string): (r: string)
    ensures r == [] || (!IsSpace(r[0]) && !IsSpace(r[|r| - 1]))
    ensures |r| <= |s|
  {
    StripTrailing(StripLeading(s))
  }

  /** Nothing is left exactly when the text is all whitespace. */
  lemma StripEmpty(s: string)
    ensures Strip(s) == [] <==> AllSpace(s)
  {
    var l := StripLeading(s);
    var k := |s| - |l|;
    StripLeadingRemovesSpace(s);
    StripTrailingRemovesSpace(l);
    if AllSpace(s) {
      StripLeadingOfSpaces(s);
    }
    if StripTrailing(l) == [] {
      assert l[0..] == l;
      assert l == [];
      assert s[..k] == s;
    }
  }

  lemma {:induction false} StripLeadingPadded(lead: string, core: string)
    requires AllSpace(lead)
    requires core == [] || !IsSpace(core[0])
    ensures StripLeading(lead + core) == core
    decreases |lead|
  {
    if lead == [] {
      assert lead + core == core;
    } else {
      assert (lead + core)[1..] == lead[1..] + core;
      StripLeadingPadded(lead[1..], core);
    }
  }

  lemma {:induction false} StripTrailingPadded(core: string, trail: string)
    requires AllSpace(trail)
    requires core == [] || !IsSpace(core[|core| - 1])
    ensures StripTrailing(core + trail) == core
    decreases |trail|
  {
    if trail == [] {
      assert core + trail == core;
    } else {
      var s := core + trail;
      assert s[..|s| - 1] == core + trail[..|trail| - 1];
      StripTrailingPadded(core, trail[..|trail| - 1]);
    }
  }

  /** Surrounding whitespace is exactly what `strip` removes: a text that
      neither starts nor ends with whitespace survives any padding. */
  lemma StripPadded(lead: string, core: string, trail: string)
    requires AllSpace(lead) && AllSpace(trail)
    requires core == [] || (!IsSpace(core[0]) && !IsSpace(core[|core| - 1]))
    ensures Strip(lead + core + trail) == core
  {
    assert lead + core + trail == lead + (core + trail);
    if core == [] {
      assert core + trail == trail;
      StripLeadingOfSpaces(lead + trail);
      assert StripLeading(lead + core + trail) == [];
    } else {
      StripLeadingPadded(lead, core + trail);
      StripTrailingPadded(core, trail);
    }
  }

  lemma {:induction false} StripLeadingOfSpaces(s: string)
    requires AllSpace(s)
    ensures StripLeading(s) == []
    decreases |s|
  {
    if s != [] {
      StripLeadingOfSpaces(s[1..]);
    }
  }

  /** A text with no whitespace at either end is its own `strip`. */
  lemma StripUnpadded(s: string)
    requires s == [] || (!IsSpace(s[0]) && !IsSpace(s[|s| - 1]))
    ensures Strip(s) == s
  {
    StripPadded([], s, []);
    assert [] + s + [] == s;
  }

  function UpperChar(c: char): char {
    if 'a' <= c <= 'z' then (c as int - 32) as char else c
  }

  /** `s.upper()` on the ASCII letters. */
  function Upper(s: string): (r: string)
    ensures |r| == |s|
  {
    if s == [] then [] else [UpperChar(s[0])] + Upper(s[1..])
  }

  /** Upper-casing maps each character on its own, and leaves no lower-case
      ASCII letter behind. */
  lemma {:induction false} UpperPointwise(s: string)
    ensures forall i :: 0 <= i < |s| ==> Upper(s)[i] == UpperChar(s[i])
    ensures forall i :: 0 <= i < |s| ==> !('a' <= Upper(s)[i] <= 'z')
  {
    if s != [] {
      UpperPointwise(s[1..]);
      assert forall i :: 1 <= i < |s| ==> Upper(s)[i] == Upper(s[1..])[i - 1];
    }
  }

  lemma {:induction false} UpperUnchanged(s: string)
    requires forall i :: 0 <= i < |s| ==> !('a' <= s[i] <= 'z')
    ensures Upper(s) == s
  {
    if s != [] {
      UpperUnchanged(s[1..]);
      assert s == [s[0]] + s[1..];
    }
  }

  predicate OccursAt(s: string, sep: string, i: int) {
    0 <= i && i + |sep| <= |s| && s[i..i + |sep|] == sep
  }

  /** The leftmost occurrence of `sep` in `s` at or after `from`, the scan
      `str.split` and `str.find` perform. */
  function Find(s: string, sep: string, from: nat): (r: Option<nat>)
    requires |sep| > 0 && from <= |s|
    ensures r.Some? ==> from <= r.value && OccursAt(s, sep, r.value)
    ensures r.Some? ==> forall k :: from <= k < r.value ==> !OccursAt(s, sep, k)
    ensures r.None? ==> forall k :: from <= k <= |s| ==> !OccursAt(s, sep, k)
    decreases |s| - from
  {
    if from + |sep| > |s| then None
    else if s[from..from + |sep|] == sep then Some(from)
    else Find(s, sep, from + 1)
  }

  /** The parts of `parts` glued back together with `sep` between them. */
  function Join(parts: seq<string>, sep: string): string
    requires |parts| > 0
  {
    if |parts| == 1 then parts[0] else parts[0] + sep + Join(parts[1..], sep)
  }

  /** `s.split(sep)` for a non-empty separator. */
  function Split(s: string, sep: string): (parts: seq<string>)
    requires |sep| > 0
    ensures |parts| > 0
    ensures Join(parts, sep) == s
    ensures Find(s, sep, 0).None? ==> parts == [s]
    ensures Find(s, sep, 0).Some? ==> parts[0] == s[..Find(s, sep, 0).value]
    ensures forall k :: 0 <= k < |parts| ==> Find(parts[k], sep, 0).None?
    decreases |s|
  {
    match Find(s, sep, 0)
    case None => [s]
    case Some(i) =>
      var rest := Split(s[i + |sep|..], sep);
      Around(s, i, i + |sep|);
      NoneBeforeFirst(s, sep, i);
      var parts := [s[..i]] + rest;
      assert forall k :: 1 <= k < |parts| ==> parts[k] == rest[k - 1];
      parts
  }

  /** Every part but the last is followed by the first occurrence of the
      separator after it. */
  predicate CutsAtFirst(parts: seq<string>, sep: string)
    requires |sep| > 0
  {
    forall k :: 0 <= k < |parts| - 1 ==> Find(parts[k] + sep, sep, 0) == Some(|parts[k]|)
  }

  /** `Split` cuts at the first occurrence after each part, so a separator
      that overlaps itself (`" - "` in `"a -  - - - "`) is cut where
      `str.split` cuts it. */
  lemma {:induction false} SplitCutsAtFirst(s: string, sep: string)
    requires |sep| > 0
    ensures CutsAtFirst(Split(s, sep), sep)
    decreases |s|
  {
    match Find(s, sep, 0)
    case None =>
    case Some(i) =>
      var rest := Split(s[i + |sep|..], sep);
      SplitCutsAtFirst(s[i + |sep|..], sep);
      FirstThenSeparator(s, sep, i);
      assert Split(s, sep) == [s[..i]] + rest;
      ConsCuts(s[..i], rest, sep);
  }

  lemma ConsCuts(first: string, rest: seq<string>, sep: string)
    requires |sep| > 0 && Find(first + sep, sep, 0) == Some(|first|)
    requires CutsAtFirst(rest, sep)
    ensures CutsAtFirst([first] + rest, sep)
  {
    var parts := [first] + rest;
    assert forall k :: 1 <= k < |parts| ==> parts[k] == rest[k - 1];
  }

  /** The separator is first found right after the first part. */
  lemma FirstThenSeparator(s: string, sep: string, i: nat)
    requires |sep| > 0 && Find(s, sep, 0) == Some(i)
    ensures Find(s[..i] + sep, sep, 0) == Some(i)
  {
    var j := i + |sep|;
    var p := s[..j];
    assert OccursAt(p, sep, i) by { SliceOfPrefix(s, j, i, j); }
    assert p == s[..i] + sep by { PrefixThenSlice(s, i, j); }
    FoundSomewhere(p, sep, i);
    FindInPrefix(s, sep, j, 0);
  }

  lemma FoundSomewhere(s: string, sep: string, i: nat)
    requires |sep| > 0 && OccursAt(s, sep, i)
    ensures Find(s, sep, 0).Some?
  {
  }

  lemma PrefixThenSlice(s: string, i: nat, j: nat)
    requires i <= j <= |s|
    ensures s[..j] == s[..i] + s[i..j]
  {
  }

  lemma Around(s: string, i: nat, j: nat)
    requires i <= j <= |s|
    ensures s == s[..i] + s[i..j] + s[j..]
  {
  }

  /** The text before the first occurrence of `sep` holds none. */
  lemma NoneBeforeFirst(s: string, sep: string, i: nat)
    requires |sep| > 0 && Find(s, sep, 0) == Some(i)
    ensures Find(s[..i], sep, 0).None?
  {
    if Find(s[..i], sep, 0).Some? {
      FindInPrefix(s, sep, i, 0);
      assert false;
    }
  }

  /** No occurrence of a separator that starts with `c` can begin at a
      position that does not hold `c`. */
  lemma FindSkips(s: string, sep: string, n: nat)
    requires |sep| > 0 && n <= |s|
    requires forall k :: 0 <= k < n ==> s[k] != sep[0]
    ensures Find(s, sep, 0) == Find(s, sep, n)
  {
    var k := 0;
    while k < n
      invariant 0 <= k <= n
      invariant Find(s, sep, 0) == Find(s, sep, k)
    {
      if k + |sep| <= |s| {
        assert s[k..k + |sep|][0] == s[k];
      }
      assert !OccursAt(s, sep, k);
      k := k + 1;
    }
  }

  /** The first occurrence of `sep` in a prefix of `s` is its first
      occurrence in `s`. */
  lemma {:induction false} FindInPrefix(s: string, sep: string, j: nat, from: nat)
    requires |sep| > 0 && from <= j <= |s| && Find(s[..j], sep, from).Some?
    ensures Find(s, sep, from) == Find(s[..j], sep, from)
    decreases j - from
  {
    var p := s[..j];
    assert from + |sep| <= |p|;
    SliceOfPrefix(s, j, from, from + |sep|);
    if p[from..from + |sep|] != sep {
      FindInPrefix(s, sep, j, from + 1);
    }
  }

  lemma SliceOfPrefix(s: string, j: nat, k: nat, e: nat)
    requires k <= e <= j <= |s|
    ensures s[..j][k..e] == s[k..e]
  {
    forall t | 0 <= t < e - k ensures s[..j][k..e][t] == s[k..e][t] {
      assert s[..j][k..e][t] == s[..j][k + t] == s[k + t];
    }
  }

  predicate IsDigit(c: char) {
    '0' <= c <= '9'
  }

  predicate AllDigits(s: string) {
    forall i :: 0 <= i < |s| ==> IsDigit(s[i])
  }

  function DigitValue(c: char): nat
    requires IsDigit(c)
  {
    c as int - '0' as int
  }

  function DigitChar(d: nat): (c: char)
    requires d < 10
    ensures IsDigit(c) && DigitValue(c) == d
  {
    ('0' as int + d) as char
  }

  /** The number the decimal digits of `b` spell, underscores ignored. */
  function DecimalValue(b: string): nat
    requires forall i :: 0 <= i < |b| ==> IsDigit(b[i]) || b[i] == '_'
  {
    if b == [] then 0
    else if b[|b| - 1] == '_' then DecimalValue(b[..|b| - 1])
    else 10 * DecimalValue(b[..|b| - 1]) + DigitValue(b[|b| - 1])
  }

  /** The value of a one- or two-digit decimal text. */
  function ShortDecimalValue(t: string): nat
    requires 1 <= |t| <= 2 && AllDigits(t)
  {
    if |t| == 1 then DigitValue(t[0]) else 10 * DigitValue(t[0]) + DigitValue(t[1])
  }

  /** The first occurrence of a one-character separator `[c]` in
      `a + [c] + b` is right after `a` when `a` does not contain `c`. */
  lemma FindAfter(a: string, c: char, b: string)
    requires c !in a
    ensures Find(a + [c] + b, [c], 0) == Some(|a|)
  {
    var s := a + [c] + b;
    FindSkips(s, [c], |a|);
    assert s[|a|..|a| + 1] == [c];
  }

  /** `str(n)` for a natural number: its decimal digits, no leading zero. */
  function DecimalString(n: nat): (s: string)
    ensures |s| > 0 && AllDigits(s)
    ensures |s| > 1 ==> s[0] != '0'
    ensures DecimalValue(s) == n
  {
    if n < 10 then [DigitChar(n)]
    else
      var s := DecimalString(n / 10) + [DigitChar(n % 10)];
      assert s[..|s| - 1] == DecimalString(n / 10);
      s
  }

  /** The body `int()` accepts once the sign is gone: decimal digits, with
      single underscores allowed between two digits. */
  predicate DigitGroups(b: string) {
    && |b| > 0 && IsDigit(b[0]) && IsDigit(b[|b| - 1])
    && (forall i :: 0 <= i < |b| ==> IsDigit(b[i]) || b[i] == '_')
    && (forall i :: 0 <= i < |b| - 1 ==> !(b[i] == '_' && b[i + 1] == '_'))
  }

  /** `int(s)` for a str argument in base 10: surrounding whitespace is
      ignored, the rest must be an integer literal. */
  function ParseInt(s: string): Result<int> {
    IntLiteral(Strip(s))
  }

  /** What `int()` accepts: after stripping, a text ending in a digit; an
      unsigned numeral is never negative and a negated one never positive;
      blank text raises. */
  lemma ParseIntShape(s: string)
    ensures var r := ParseInt(s); var t := Strip(s);
      && (r.Ok? ==> |t| > 0 && IsDigit(t[|t| - 1]))
      && (r.Ok? && IsDigit(t[0]) ==> r.value >= 0)
      && (r.Ok? && t[0] == '-' ==> r.value <= 0)
      && (AllSpace(s) ==> r == ValueError)
  {
    StripEmpty(s);
  }

  /** One optional sign, then digit groups; anything else raises. */
  function IntLiteral(t: string): Result<int> {
    if |t| > 0 && (t[0] == '+' || t[0] == '-') then
      var body := t[1..];
      if DigitGroups(body) then
        var v: int := DecimalValue(body);
        Ok(if t[0] == '-' then -v else v)
      else ValueError
    else if DigitGroups(t) then Ok(DecimalValue(t))
    else ValueError
  }

  /** `int(str(n)) == n`, also with whitespace around the digits. */
  lemma ParseIntOfDecimalString(n: nat, lead: string, trail: string)
    requires AllSpace(lead) && AllSpace(trail)
    ensures ParseInt(lead + DecimalString(n) + trail) == Ok(n)
  {
    var d := DecimalString(n);
    StripPadded(lead, d, trail);
    assert DigitGroups(d);
    assert IsDigit(d[0]);
    assert IntLiteral(d) == Ok(n);
  }

  /** `int('-' + str(n)) == -n`, also with whitespace around the number. */
  lemma ParseIntOfNegated(n: nat, lead: string, trail: string)
    requires AllSpace(lead) && AllSpace(trail)
    ensures ParseInt(lead + "-" + DecimalString(n) + trail) == Ok(-(n as int))
  {
    var d := DecimalString(n);
    NegatedStrip(lead, d, trail);
    NegatedLiteral(d);
  }

  lemma NegatedStrip(lead: string, d: string, trail: string)
    requires AllSpace(lead) && AllSpace(trail) && |d| > 0 && AllDigits(d)
    ensures Strip(lead + "-" + d + trail) == "-" + d
  {
    var m := "-" + d;
    assert lead + "-" + d + trail == lead + m + trail;
    assert !IsSpace(m[|m| - 1]) by { assert m[|m| - 1] == d[|d| - 1]; }
    StripPadded(lead, m, trail);
  }

  lemma NegatedLiteral(d: string)
    requires |d| > 0 && AllDigits(d)
    ensures IntLiteral("-" + d) == Ok(-(DecimalValue(d) as int))
  {
    var m := "-" + d;
    assert m[1..] == d;
    assert DigitGroups(d);
  }
}

=== FILE: ranges.dfy ===
/** Preferred time ranges written `"H:MM - H:MM"`, and the test whether a
    slot's time falls in one of them (`is_in_preferred_range`). */
module Ranges {
  import opened Python
  import opened Strptime

  /** A half-open window `[start, end)` of minutes since midnight. */
  datatype Range = Range(start: int, end: int) {
    predicate Contains(t: int) {
      start <= t < end
    }
  }

  const Separator := " - "

  /** Reading one range text: it must split on `" - "` into exactly two
      parts, each read with `%H:%M`; anything else raises ValueError. */
  function ParseRange(r: string): (res: Result<Range>)
    ensures res.Ok? ==> 0 <= res.value.start < 24 * 60 && 0 <= res.value.end < 24 * 60
  {
    var parts := Split(r, Separator);
    if |parts| != 2 then ValueError
    else
      match (Strptime24(parts[0]), Strptime24(parts[1]))
      case (Ok(a), Ok(b)) => Ok(Range(a, b))
      case _ => ValueError
  }

  /** A range text without `" - "` raises; the start of a range that reads
      is the text before the first `" - "`, read with `%H:%M`. */
  lemma ParseRangeBeforeSeparator(r: string)
    ensures Find(r, Separator, 0).None? ==> ParseRange(r) == ValueError
    ensures ParseRange(r).Ok? ==> (Find(r, Separator, 0).Some?
      && Strptime24(r[..Find(r, Separator, 0).value]) == Ok(ParseRange(r).value.start))
  {
  }

  /** Every range text, read. Reading has no effects, so reading them all up
      front and consulting the readings in order is the same as reading each
      one when the loop reaches it. */
  function ParseAll(ranges: seq<string>): (rs: seq<Result<Range>>)
    ensures |rs| == |ranges|
    ensures forall k :: 0 <= k < |ranges| ==> rs[k] == ParseRange(ranges[k])
  {
    seq(|ranges|, k requires 0 <= k < |ranges| => ParseRange(ranges[k]))
  }

  predicate WellFormed(ranges: seq<string>) {
    forall k :: 0 <= k < |ranges| ==> ParseRange(ranges[k]).Ok?
  }

  /** The range was read and holds `t`. */
  predicate Hit(t: int, r: Result<Range>) {
    r.Ok? && r.value.Contains(t)
  }

  /** The range was read and does not hold `t`. */
  predicate Miss(t: int, r: Result<Range>) {
    r.Ok? && !r.value.Contains(t)
  }

  /** The loop over the ranges: the first range that holds the time answers
      true, the first one that cannot be read raises, whichever comes first. */
  function Scan(t: int, rs: seq<Result<Range>>): Result<bool>
    decreases |rs|
  {
    if rs == [] then Ok(false)
    else
      match rs[0]
      case ValueError => ValueError
      case Ok(rg) => if rg.Contains(t) then Ok(true) else Scan(t, rs[1..])
  }

  /** `is_in_preferred_range`: an absent time is never preferred. A present
      time is always truthy, midnight included. */
  function IsInPreferredRange(slot: Option<int>, ranges: seq<string>): (res: Result<bool>)
    ensures slot.None? ==> res == Ok(false)
  {
    match slot
    case None => Ok(false)
    case Some(t) => Scan(t, ParseAll(ranges))
  }

  /** Every range before position `k` was read and misses `t`. */
  predicate MissesBefore(t: int, rs: seq<Result<Range>>, k: int)
    requires 0 <= k <= |rs|
  {
    forall j :: 0 <= j < k ==> Miss(t, rs[j])
  }

  /** What the scan answers is decided by the first range that either holds
      the time or cannot be read; every range before it reads and misses. */
  lemma {:induction false} ScanDecidedByFirstDecidingRange(t: int, rs: seq<Result<Range>>)
    ensures Scan(t, rs) == Ok(true) <==>
      exists k :: 0 <= k < |rs| && Hit(t, rs[k]) && MissesBefore(t, rs, k)
    ensures Scan(t, rs) == ValueError <==>
      exists k :: 0 <= k < |rs| && rs[k].ValueError? && MissesBefore(t, rs, k)
    ensures Scan(t, rs) == Ok(false) <==> MissesBefore(t, rs, |rs|)
    decreases |rs|
  {
    if rs != [] {
      var tail := rs[1..];
      ScanDecidedByFirstDecidingRange(t, tail);
      if Miss(t, rs[0]) {
        forall k | 0 <= k < |tail|
          ensures MissesBefore(t, tail, k) <==> MissesBefore(t, rs, k + 1)
        {
          if MissesBefore(t, tail, k) {
            forall j | 0 <= j < k + 1 ensures Miss(t, rs[j]) {
              if j > 0 { assert rs[j] == tail[j - 1]; }
            }
          }
          if MissesBefore(t, rs, k + 1) {
            forall j | 0 <= j < k ensures Miss(t, tail[j]) {
              assert tail[j] == rs[j + 1];
            }
          }
        }
        MissesShift(t, rs);
        if exists k :: 0 <= k < |rs| && Hit(t, rs[k]) && MissesBefore(t, rs, k) {
          var k :| 0 <= k < |rs| && Hit(t, rs[k]) && MissesBefore(t, rs, k);
          assert k > 0 && tail[k - 1] == rs[k];
        }
        if exists k :: 0 <= k < |rs| && rs[k].ValueError? && MissesBefore(t, rs, k) {
          var k :| 0 <= k < |rs| && rs[k].ValueError? && MissesBefore(t, rs, k);
          assert k > 0 && tail[k - 1] == rs[k];
        }
        if Scan(t, tail) == Ok(true) {
          var k :| 0 <= k < |tail| && Hit(t, tail[k]) && MissesBefore(t, tail, k);
          assert rs[k + 1] == tail[k];
        }
        if Scan(t, tail) == ValueError {
          var k :| 0 <= k < |tail| && tail[k].ValueError? && MissesBefore(t, tail, k);
          assert rs[k + 1] == tail[k];
        }
      } else {
        assert MissesBefore(t, rs, 0);
        if rs[0].Ok? {
          assert Hit(t, rs[0]);
        }
      }
    }
  }

  lemma MissesShift(t: int, rs: seq<Result<Range>>)
    requires |rs| > 0 && Miss(t, rs[0])
    ensures MissesBefore(t, rs[1..], |rs| - 1) <==> MissesBefore(t, rs, |rs|)
  {
    var tail := rs[1..];
    if MissesBefore(t, tail, |tail|) {
      forall j | 0 <= j < |rs| ensures Miss(t, rs[j]) {
        if j > 0 { assert rs[j] == tail[j - 1]; }
      }
    }
  }

  /** When every range reads, the scan answers whether some range holds the time. */
  lemma {:induction false} ScanOfReadRanges(t: int, rs: seq<Result<Range>>)
    requires forall k :: 0 <= k < |rs| ==> rs[k].Ok?
    ensures Scan(t, rs) == Ok(exists k :: 0 <= k < |rs| && Hit(t, rs[k]))
    decreases |rs|
  {
    if rs != [] {
      var tail := rs[1..];
      assert forall k :: 0 <= k < |tail| ==> tail[k] == rs[k + 1];
      ScanOfReadRanges(t, tail);
      assert rs[0].Ok?;
      if !Hit(t, rs[0]) {
        if exists k :: 0 <= k < |rs| && Hit(t, rs[k]) {
          var k :| 0 <= k < |rs| && Hit(t, rs[k]);
          assert Hit(t, tail[k - 1]);
        }
      }
    }
  }

  /** For ranges that all read correctly, a time is preferred exactly when
      some range holds it. */
  lemma PreferredIffSomeRangeHolds(t: int, ranges: seq<string>)
    requires WellFormed(ranges)
    ensures IsInPreferredRange(Some(t), ranges)
      == Ok(exists k :: 0 <= k < |ranges| && ParseRange(ranges[k]).value.Contains(t))
  {
    var rs := ParseAll(ranges);
    ScanOfReadRanges(t, rs);
    assert (exists k :: 0 <= k < |rs| && Hit(t, rs[k]))
      == (exists k :: 0 <= k < |ranges| && ParseRange(ranges[k]).value.Contains(t));
  }

  /** With a single range that reads, a time is preferred exactly when that
      range holds it. */
  lemma SingleRange(r: string, t: int)
    requires ParseRange(r).Ok?
    ensures IsInPreferredRange(Some(t), [r]) == Ok(ParseRange(r).value.Contains(t))
  {
    var rs := ParseAll([r]);
    assert rs == [ParseRange(r)];
    assert rs[1..] == [];
    assert Scan(t, rs[1..]) == Ok(false);
    assert IsInPreferredRange(Some(t), [r]) == Scan(t, rs);
  }

  /** Listing well-formed ranges in another order, or repeating some, does
      not change the answer. */
  lemma OrderDoesNotMatter(t: int, a: seq<string>, b: seq<string>)
    requires WellFormed(a) && WellFormed(b)
    requires forall r :: r in a <==> r in b
    ensures IsInPreferredRange(Some(t), a) == IsInPreferredRange(Some(t), b)
  {
    PreferredIffSomeRangeHolds(t, a);
    PreferredIffSomeRangeHolds(t, b);
    if exists k :: 0 <= k < |a| && ParseRange(a[k]).value.Contains(t) {
      var k :| 0 <= k < |a| && ParseRange(a[k]).value.Contains(t);
      assert a[k] in b;
      var i :| 0 <= i < |b| && b[i] == a[k];
    }
    if exists k :: 0 <= k < |b| && ParseRange(b[k]).value.Contains(t) {
      var k :| 0 <= k < |b| && ParseRange(b[k]).value.Contains(t);
      assert b[k] in a;
      var i :| 0 <= i < |a| && a[i] == b[k];
    }
  }

  /** The spelling of a time used in range texts: hour without a leading
      zero, colon, two-digit minute. */
  function FormatClock(t: int): (s: string)
    requires 0 <= t < 24 * 60
  {
    var h := t / 60;
    var m := t % 60;
    (if h < 10 then [DigitChar(h)] else [DigitChar(h / 10), DigitChar(h % 10)])
      + ":" + [DigitChar(m / 10), DigitChar(m % 10)]
  }

  function FormatRange(start: int, end: int): string
    requires 0 <= start < 24 * 60 && 0 <= end < 24 * 60
  {
    FormatClock(start) + Separator + FormatClock(end)
  }

  /** Writing a range and reading it back gives the same range. */
  lemma FormatRangeRoundTrip(start: int, end: int)
    requires 0 <= start < 24 * 60 && 0 <= end < 24 * 60
    ensures ParseRange(FormatRange(start, end)) == Ok(Range(start, end))
  {
    ClockRoundTrip(start);
    ClockRoundTrip(end);
    SplitAtSeparator(FormatClock(start), FormatClock(end));
  }

  lemma ClockRoundTrip(t: int)
    requires 0 <= t < 24 * 60
    ensures Strptime24(FormatClock(t)) == Ok(t)
    ensures forall i :: 0 <= i < |FormatClock(t)| ==> FormatClock(t)[i] != ' '
  {
    var h := t / 60;
    var m := t % 60;
    var ht := if h < 10 then [DigitChar(h)] else [DigitChar(h / 10), DigitChar(h % 10)];
    var mt := [DigitChar(m / 10), DigitChar(m % 10)];
    assert Hour24Token(ht) && ShortDecimalValue(ht) == h;
    assert MinuteToken(mt) && ShortDecimalValue(mt) == m;
    assert FormatClock(t) == ht + ":" + mt;
    Strptime24Accepts(ht, mt);
  }

  /** Two texts without spaces, joined by the separator, split back apart. */
  lemma SplitAtSeparator(a: string, b: string)
    requires forall i :: 0 <= i < |a| ==> a[i] != ' '
    requires forall i :: 0 <= i < |b| ==> b[i] != ' '
    ensures Split(a + Separator + b, Separator) == [a, b]
  {
    var s := a + Separator + b;
    FindSkips(s, Separator, |a|);
    assert s[|a|..|a| + 3] == Separator;
    assert Find(s, Separator, 0) == Some(|a|);
    assert s[..|a|] == a && s[|a| + 3..] == b;
    FindSkips(b, Separator, |b|);
    assert Split(b, Separator) == [b];
  }

  /** The lower end of a range is preferred and the upper end is not. */
  lemma RangeEnds(start: int, end: int)
    requires 0 <= start < end < 24 * 60
    ensures IsInPreferredRange(Some(start), [FormatRange(start, end)]) == Ok(true)
    ensures IsInPreferredRange(Some(end), [FormatRange(start, end)]) == Ok(false)
    ensures start > 0 ==> IsInPreferredRange(Some(start - 1), [FormatRange(start, end)]) == Ok(false)
  {
    FormatRangeRoundTrip(start, end);
    SingleRange(FormatRange(start, end), start);
    SingleRange(FormatRange(start, end), end);
    SingleRange(FormatRange(start, end), start - 1);
  }

  lemma MorningRangeExample()
    ensures ParseRange("9:00 - 9:30") == Ok(Range(9 * 60, 9 * 60 + 30))
  {
    assert FormatRange(9 * 60, 9 * 60 + 30) == "9:00 - 9:30";
    FormatRangeRoundTrip(9 * 60, 9 * 60 + 30);
  }

  lemma AfternoonRangeExample()
    ensures ParseRange("13:10 - 13:30") == Ok(Range(13 * 60 + 10, 13 * 60 + 30))
  {
    assert FormatRange(13 * 60 + 10, 13 * 60 + 30) == "13:10 - 13:30";
    FormatRangeRoundTrip(13 * 60 + 10, 13 * 60 + 30);
  }
}

=== FILE: slots.dfy ===
/** Choosing and clicking a time slot inside an opened block
    (`attempt_to_book_slot`). */
module Slots {
  import opened Python
  import opened Strptime
  import opened TimeLabel
  import opened Ranges
  import opened Page

  /** One time-slot form of a block page: the text of its time label and
      whether it has a booking link, each absent when the element is missing. */
  datatype Candidate = Candidate(timeText: Option<string>, hasLink: bool)

  /** A block page either never shows its slot forms within the page wait, or
      shows these forms in document order. */
  datatype SlotList = FormsMissing | Forms(candidates: seq<Candidate>)

  /** A form the crawler books: its label is present and reads as a time, the
      ranges read and one of them holds it, and it has a booking link. */
  predicate Bookable(c: Candidate, ranges: seq<string>) {
    && c.timeText.Some?
    && ParseTimeString(c.timeText.value).Ok?
    && IsInPreferredRange(ParseTimeString(c.timeText.value).value, ranges) == Ok(true)
    && c.hasLink
  }

  /** The first bookable form at or after position `from`. */
  function FirstBookable(forms: seq<Candidate>, ranges: seq<string>, from: nat): (r: Option<nat>)
    requires from <= |forms|
    ensures r.Some? ==> from <= r.value < |forms| && Bookable(forms[r.value], ranges)
    ensures r.Some? ==> forall j :: from <= j < r.value ==> !Bookable(forms[j], ranges)
    ensures r.None? ==> forall j :: from <= j < |forms| ==> !Bookable(forms[j], ranges)
    decreases |forms| - from
  {
    if from == |forms| then None
    else if Bookable(forms[from], ranges) then Some(from)
    else FirstBookable(forms, ranges, from + 1)
  }

  /** What the attempt did: whether it booked, and its clicks. */
  datatype Attempt = Attempt(booked: bool, actions: seq<Action>)

  /** `attempt_to_book_slot` on the page of `block`: scan the forms in
      document order, skipping every form whose label is missing or does not
      read, whose time no range holds, whose ranges do not read, or whose
      link is missing, and click the first one left. */
  function AttemptToBookSlot(block: Block, page: SlotList, ranges: seq<string>): (at: Attempt)
    ensures page.FormsMissing? ==> at == Attempt(false, [])
    ensures at.booked <==> page.Forms? && exists i :: 0 <= i < |page.candidates| && Bookable(page.candidates[i], ranges)
    ensures at.booked ==> exists i :: (
      && 0 <= i < |page.candidates|
      && at.actions == [ClickSlot(block, i)]
      && Bookable(page.candidates[i], ranges)
      && forall j :: 0 <= j < i ==> !Bookable(page.candidates[j], ranges))
    ensures !at.booked ==> at.actions == []
    ensures CountClicks(at.actions) == (if at.booked then 1 else 0)
    ensures InStage(at.actions, BlockStage)
  {
    var none: seq<Action> := [];
    assert CountClicks(none) == 0 && InStage(none, BlockStage);
    match page
    case FormsMissing => Attempt(false, none)
    case Forms(forms) =>
      match FirstBookable(forms, ranges, 0)
      case None => Attempt(false, none)
      case Some(i) =>
        var click := [ClickSlot(block, i)];
        assert click[1..] == [] && CountClicks(click) == 1;
        assert InStage(click, BlockStage);
        assert Bookable(forms[i], ranges);
        Attempt(true, click)
  }

  /** A form whose label is missing, whose label does not read, or whose link
      is missing is never clicked. */
  lemma SkippedForms(c: Candidate, ranges: seq<string>)
    requires || c.timeText.None?
             || ParseTimeString(c.timeText.value).ValueError?
             || ParseTimeString(c.timeText.value) == Ok(None)
             || !c.hasLink
    ensures !Bookable(c, ranges)
  {
  }

  /** Moving a bookable form ahead of the first one that was going to be
      clicked makes it the one clicked. */
  lemma EarlierBookableWins(block: Block, forms: seq<Candidate>, c: Candidate, ranges: seq<string>)
    requires Bookable(c, ranges)
    ensures AttemptToBookSlot(block, Forms([c] + forms), ranges).actions == [ClickSlot(block, 0)]
  {
    assert ([c] + forms)[0] == c;
  }

  /** A form reading AM9:15 with a link, under the range 9:00 - 9:30. */
  lemma QuarterPastNineBookable()
    ensures Bookable(Candidate(Some("AM9:15"), true), ["9:00 - 9:30"])
  {
    var h, m := "9", "15";
    assert ShortDecimalValue(h) == 9 && ShortDecimalValue(m) == 15;
    CanonicalLabelAccepted(false, h, m);
    assert "AM9:15" == Meridiem(false) + h + ":" + m;
    MorningRangeExample();
    SingleRange("9:00 - 9:30", 9 * 60 + 15);
  }

  /** A form reading AM9:45 lies outside the range 9:00 - 9:30. */
  lemma QuarterToTenNotBookable(hasLink: bool)
    ensures !Bookable(Candidate(Some("AM9:45"), hasLink), ["9:00 - 9:30"])
  {
    var h, m := "9", "45";
    assert ShortDecimalValue(h) == 9 && ShortDecimalValue(m) == 45;
    CanonicalLabelAccepted(false, h, m);
    assert "AM9:45" == Meridiem(false) + h + ":" + m;
    MorningRangeExample();
    SingleRange("9:00 - 9:30", 9 * 60 + 45);
  }

  /** Document order decides: past a form outside the ranges and a matching
      form without a link, the third form is clicked. */
  lemma DocumentOrderExample()
    ensures
      var forms := [Candidate(Some("AM9:45"), true), Candidate(Some("AM9:15"), false),
                    Candidate(Some("AM9:15"), true)];
      AttemptToBookSlot(Morning, Forms(forms), ["9:00 - 9:30"]) == Attempt(true, [ClickSlot(Morning, 2)])
  {
    QuarterToTenNotBookable(true);
    SkippedForms(Candidate(Some("AM9:15"), false), ["9:00 - 9:30"]);
    QuarterPastNineBookable();
    ThirdFormClicked(Morning, Candidate(Some("AM9:45"), true), Candidate(Some("AM9:15"), false),
                     Candidate(Some("AM9:15"), true), ["9:00 - 9:30"]);
  }

  lemma ThirdFormClicked(block: Block, c0: Candidate, c1: Candidate, c2: Candidate, ranges: seq<string>)
    requires !Bookable(c0, ranges) && !Bookable(c1, ranges) && Bookable(c2, ranges)
    ensures AttemptToBookSlot(block, Forms([c0, c1, c2]), ranges) == Attempt(true, [ClickSlot(block, 2)])
  {
    var forms := [c0, c1, c2];
    assert forms[0] == c0 && forms[1] == c1 && forms[2] == c2;
    assert FirstBookable(forms, ranges, 2) == Some(2);
    assert FirstBookable(forms, ranges, 1) == Some(2);
    assert FirstBookable(forms, ranges, 0) == Some(2);
  }
}

=== FILE: strptime.dfy ===
/** The two `datetime.strptime` formats the crawler uses: `%p%I:%M` for slot
    labels and `%H:%M` for the ends of a preferred range. Each field matches
    CPython's regular expression for it, and the whole text must be
    consumed, or ValueError is raised. Readings are minutes since midnight. */
module Strptime {
  import opened Python

  /** The `%p` field after upper-casing: `AM` or `PM`. */
  predicate HasMeridiem(n: string) {
    |n| >= 2 && (n[..2] == "AM" || n[..2] == "PM")
  }

  function Meridiem(pm: bool): string {
    if pm then "PM" else "AM"
  }

  /** The hour text `%I` accepts, `1[0-2]|0[1-9]|[1-9]`: one or two digits
      whose value is 1 to 12. */
  predicate Hour12Token(h: string) {
    1 <= |h| <= 2 && AllDigits(h) && 1 <= ShortDecimalValue(h) <= 12
  }

  /** The minute text `%M` accepts when nothing may follow it,
      `[0-5]\d|\d`: one or two digits whose value is below 60. */
  predicate MinuteToken(m: string) {
    1 <= |m| <= 2 && AllDigits(m) && ShortDecimalValue(m) < 60
  }

  lemma HourValue(h: string)
    requires Hour12Token(h)
    ensures AllDigits(h) && ':' !in h
    ensures 1 <= ShortDecimalValue(h) <= 12
  {
  }

  lemma MinuteValue(m: string)
    requires MinuteToken(m)
    ensures AllDigits(m)
    ensures ShortDecimalValue(m) < 60
  {
  }

  /** The 24-hour hour for a 12-hour reading, as `strptime` turns `%p` and
      `%I` into an hour: 12 AM is hour 0, 12 PM stays 12, other PM hours
      gain 12. */
  function To24(pm: bool, hour12: int): int {
    if !pm && hour12 == 12 then 0
    else if pm && hour12 != 12 then hour12 + 12
    else hour12
  }

  /** `datetime.strptime(n, '%p%I:%M')` for a text that starts with a
      meridiem: the hour is the text up to the first colon, the minute
      everything after it, and the whole text must be consumed. */
  function Strptime12(n: string): (r: Result<int>)
    requires HasMeridiem(n)
    ensures r.Ok? ==> 0 <= r.value < 24 * 60
  {
    var rest := n[2..];
    match Find(rest, ":", 0)
    case None => ValueError
    case Some(i) =>
      var h := rest[..i];
      var m := rest[i + 1..];
      if Hour12Token(h) && MinuteToken(m) then
        HourValue(h);
        MinuteValue(m);
        Ok(To24(n[0] == 'P', ShortDecimalValue(h)) * 60 + ShortDecimalValue(m))
      else ValueError
  }

  /** Every meridiem, `%I` hour, colon and `%M` minute is read as that time
      of day. */
  lemma Strptime12Accepts(pm: bool, h: string, m: string)
    requires Hour12Token(h) && MinuteToken(m)
    ensures HasMeridiem(Meridiem(pm) + h + ":" + m)
    ensures Strptime12(Meridiem(pm) + h + ":" + m) == Ok(To24(pm, ShortDecimalValue(h)) * 60 + ShortDecimalValue(m))
  {
    var n := Meridiem(pm) + h + ":" + m;
    assert n[..2] == Meridiem(pm);
    assert n[0] == (if pm then 'P' else 'A');
    var rest := n[2..];
    assert rest == h + [':'] + m;
    HourValue(h);
    FindAfter(h, ':', m);
    assert rest[..|h|] == h && rest[|h| + 1..] == m;
  }

  /** On hours 1 to 12, the conversion is the hour mod 12, plus 12 for PM. */
  lemma To24IsModTwelve(pm: bool, hour12: int)
    requires 1 <= hour12 <= 12
    ensures To24(pm, hour12) == hour12 % 12 + (if pm then 12 else 0)
  {
  }

  /** The hour text `%H` accepts, `2[0-3]|[0-1]\d|\d`: one or two digits
      whose value is below 24. */
  predicate Hour24Token(h: string) {
    1 <= |h| <= 2 && AllDigits(h) && ShortDecimalValue(h) < 24
  }

  lemma Hour24Value(h: string)
    requires Hour24Token(h)
    ensures AllDigits(h) && ':' !in h
    ensures ShortDecimalValue(h) < 24
  {
  }

  /** `datetime.strptime(s, '%H:%M').time()`: the hour is the text up to the
      first colon, the minute everything after it. */
  function Strptime24(s: string): (r: Result<int>)
    ensures r.Ok? ==> 0 <= r.value < 24 * 60
  {
    match Find(s, ":", 0)
    case None => ValueError
    case Some(i) =>
      var h := s[..i];
      var m := s[i + 1..];
      if Hour24Token(h) && MinuteToken(m) then
        Hour24Value(h);
        MinuteValue(m);
        Ok(ShortDecimalValue(h) * 60 + ShortDecimalValue(m))
      else ValueError
  }

  /** Every `H:MM` text with an hour below 24 and a minute below 60 is read
      as that time. */
  lemma Strptime24Accepts(h: string, m: string)
    requires Hour24Token(h) && MinuteToken(m)
    ensures Strptime24(h + ":" + m) == Ok(ShortDecimalValue(h) * 60 + ShortDecimalValue(m))
  {
    Hour24Value(h);
    FindAfter(h, ':', m);
    var s := h + ":" + m;
    assert s == h + [':'] + m;
    assert s[..|h|] == h && s[|h| + 1..] == m;
  }

  /** Conversely, every text `%H:%M` reads is an hour below 24, a colon and
      a minute below 60, read as that time. */
  lemma Strptime24Shape(s: string)
    requires Strptime24(s).Ok?
    ensures exists i :: (0 <= i < |s| && s[i] == ':' && Hour24Token(s[..i]) && MinuteToken(s[i + 1..])
      && Strptime24(s).value == ShortDecimalValue(s[..i]) * 60 + ShortDecimalValue(s[i + 1..]))
  {
    var i := Find(s, ":", 0).value;
    assert s[i..i + 1][0] == s[i];
  }

  /** The alternatives of CPython's `%I` pattern, character by character. */
  predicate Hour12Pattern(h: string) {
    || (|h| == 2 && h[0] == '1' && '0' <= h[1] <= '2')
    || (|h| == 2 && h[0] == '0' && '1' <= h[1] <= '9')
    || (|h| == 1 && '1' <= h[0] <= '9')
  }

  /** The alternatives of CPython's `%M` pattern. */
  predicate MinutePattern(m: string) {
    || (|m| == 2 && '0' <= m[0] <= '5' && IsDigit(m[1]))
    || (|m| == 1 && IsDigit(m[0]))
  }

  /** The alternatives of CPython's `%H` pattern. */
  predicate Hour24Pattern(h: string) {
    || (|h| == 2 && h[0] == '2' && '0' <= h[1] <= '3')
    || (|h| == 2 && '0' <= h[0] <= '1' && IsDigit(h[1]))
    || (|h| == 1 && IsDigit(h[0]))
  }

  /** Reading the fields by value accepts exactly what the patterns match. */
  lemma TokensArePatterns(t: string)
    ensures Hour12Token(t) <==> Hour12Pattern(t)
    ensures MinuteToken(t) <==> MinutePattern(t)
    ensures Hour24Token(t) <==> Hour24Pattern(t)
  {
    if |t| == 2 && AllDigits(t) {
      assert IsDigit(t[0]) && IsDigit(t[1]);
    } else if |t| == 1 && AllDigits(t) {
      assert IsDigit(t[0]);
    } else if 1 <= |t| <= 2 {
      var i :| 0 <= i < |t| && !IsDigit(t[i]);
    }
  }
}

=== FILE: timelabel.dfy ===
/** Reading a slot's 12-hour label such as `AM9:30` or `PM1:15` into minutes
    since midnight (`parse_time_string`). */
module TimeLabel {
  import opened Python
  import opened Strptime

  /** The label as the crawler compares it: stripped, then upper-cased. */
  function Normalize(s: string): string {
    Upper(Strip(s))
  }

  /** `parse_time_string`: no time when the normalized label lacks an AM/PM
      prefix, otherwise the strptime reading or ValueError. */
  function ParseTimeString(s: string): (r: Result<Option<int>>)
    ensures r == Ok(None) <==> !HasMeridiem(Normalize(s))
    ensures r.Ok? && r.value.Some? ==> 0 <= r.value.value < 24 * 60
  {
    var n := Normalize(s);
    if HasMeridiem(n) then
      match Strptime12(n)
      case Ok(t) => Ok(Some(t))
      case ValueError => ValueError
    else Ok(None)
  }

  /** Minutes since midnight of a 12-hour reading: the hour taken mod 12,
      plus 12 for PM. */
  function Reading(pm: bool, hour12: int, minute: int): int {
    (hour12 % 12 + (if pm then 12 else 0)) * 60 + minute
  }

  /** Every normalized label of the form meridiem, hour, colon, minute is
      accepted and read as hour mod 12, plus 12 for PM. */
  lemma {:induction false} LabelAccepted(s: string, pm: bool, h: string, m: string)
    requires Normalize(s) == Meridiem(pm) + h + ":" + m
    requires Hour12Token(h) && MinuteToken(m)
    ensures ParseTimeString(s) == Ok(Some(Reading(pm, ShortDecimalValue(h), ShortDecimalValue(m))))
  {
    Strptime12Accepts(pm, h, m);
    To24IsModTwelve(pm, ShortDecimalValue(h));
  }

  /** Conversely, every accepted label has that form. */
  lemma LabelShape(s: string)
    requires ParseTimeString(s).Ok? && ParseTimeString(s).value.Some?
    ensures HasMeridiem(Normalize(s))
    ensures
      var n := Normalize(s);
      exists i :: 2 <= i < |n| && n[i] == ':' && Hour12Token(n[2..i]) && MinuteToken(n[i + 1..])
        && ParseTimeString(s).value.value == Reading(n[0] == 'P', ShortDecimalValue(n[2..i]), ShortDecimalValue(n[i + 1..]))
  {
    var n := Normalize(s);
    var rest := n[2..];
    var j :| Find(rest, ":", 0) == Some(j);
    assert rest[j] == ':' by { assert rest[j..j + 1] == ":"; }
    var i := 2 + j;
    assert n[i] == ':';
    assert n[2..i] == rest[..j];
    assert n[i + 1..] == rest[j + 1..];
    HourValue(n[2..i]);
  }

  /** The hour the site shows, 1-12 without a leading zero. */
  function HourText(hour12: int): (h: string)
    requires 1 <= hour12 <= 12
    ensures Hour12Token(h) && ShortDecimalValue(h) == hour12
  {
    if hour12 < 10 then [DigitChar(hour12)] else ['1', DigitChar(hour12 - 10)]
  }

  /** The site's own spelling of a time: meridiem, hour 1-12, colon,
      two-digit minute. */
  function FormatLabel(t: int): string
    requires 0 <= t < 24 * 60
  {
    var h := t / 60;
    var m := t % 60;
    Meridiem(h >= 12) + HourText(if h % 12 == 0 then 12 else h % 12)
      + ":" + [DigitChar(m / 10), DigitChar(m % 10)]
  }

  /** Formatting a time and reading it back gives the same time. */
  lemma FormatLabelRoundTrip(t: int)
    requires 0 <= t < 24 * 60
    ensures ParseTimeString(FormatLabel(t)) == Ok(Some(t))
  {
    var h := t / 60;
    var m := t % 60;
    assert 0 <= h < 24 && t == h * 60 + m;
    var hour12 := if h % 12 == 0 then 12 else h % 12;
    var ht := HourText(hour12);
    var mt := [DigitChar(m / 10), DigitChar(m % 10)];
    assert MinuteToken(mt) && ShortDecimalValue(mt) == m;
    HourValue(ht);
    var s := FormatLabel(t);
    assert s == Meridiem(h >= 12) + ht + ":" + mt;
    NormalizeCanonical(h >= 12, ht, mt);
    LabelAccepted(s, h >= 12, ht, mt);
    TwelveHourClock(h);
    assert Reading(h >= 12, hour12, m) == t;
  }

  /** Hours 0 and 12 show as 12; reading back with the meridiem restores the hour. */
  lemma TwelveHourClock(h: int)
    requires 0 <= h < 24
    ensures (if h % 12 == 0 then 12 else h % 12) % 12 + (if h >= 12 then 12 else 0) == h
  {
    if h < 12 {
      assert h % 12 == h;
    } else {
      assert h % 12 == h - 12;
    }
  }

  /** A label already in the site's spelling is left alone by normalization. */
  lemma NormalizeCanonical(pm: bool, h: string, m: string)
    requires AllDigits(h) && AllDigits(m) && |m| > 0
    ensures Normalize(Meridiem(pm) + h + ":" + m) == Meridiem(pm) + h + ":" + m
  {
    var s := Meridiem(pm) + h + ":" + m;
    assert s[0] == Meridiem(pm)[0];
    assert s[|s| - 1] == m[|m| - 1];
    StripUnpadded(s);
    forall i | 0 <= i < |s|
      ensures !('a' <= s[i] <= 'z')
    {
      if i < 2 {
        assert s[i] == Meridiem(pm)[i];
      } else if i < 2 + |h| {
        assert s[i] == h[i - 2];
      } else if i > 2 + |h| {
        assert s[i] == m[i - 3 - |h|];
      }
    }
    UpperUnchanged(s);
  }

  /** A label in the site's own spelling reads as its 24-hour time. */
  lemma CanonicalLabelAccepted(pm: bool, h: string, m: string)
    requires Hour12Token(h) && MinuteToken(m)
    ensures ParseTimeString(Meridiem(pm) + h + ":" + m) == Ok(Some(Reading(pm, ShortDecimalValue(h), ShortDecimalValue(m))))
  {
    HourValue(h);
    MinuteValue(m);
    NormalizeCanonical(pm, h, m);
    LabelAccepted(Meridiem(pm) + h + ":" + m, pm, h, m);
  }

  lemma MorningLabelExample()
    ensures ParseTimeString("AM9:30") == Ok(Some(9 * 60 + 30))
  {
    var h, m := "9", "30";
    assert ShortDecimalValue(h) == 9 && ShortDecimalValue(m) == 30;
    CanonicalLabelAccepted(false, h, m);
    assert "AM9:30" == Meridiem(false) + h + ":" + m;
  }

  lemma AfternoonLabelExample()
    ensures ParseTimeString("PM1:15") == Ok(Some(13 * 60 + 15))
  {
    var h, m := "1", "15";
    assert ShortDecimalValue(h) == 1 && ShortDecimalValue(m) == 15;
    CanonicalLabelAccepted(true, h, m);
    assert "PM1:15" == Meridiem(true) + h + ":" + m;
  }

  /** Twelve AM is the first hour of the day. */
  lemma MidnightLabelExample()
    ensures ParseTimeString("AM12:05") == Ok(Some(5))
  {
    var h, m := "12", "05";
    assert ShortDecimalValue(h) == 12 && ShortDecimalValue(m) == 5;
    CanonicalLabelAccepted(false, h, m);
    assert "AM12:05" == Meridiem(false) + h + ":" + m;
  }

  /** Twelve PM is noon. */
  lemma NoonLabelExample()
    ensures ParseTimeString("PM12:40") == Ok(Some(12 * 60 + 40))
  {
    var h, m := "12", "40";
    assert ShortDecimalValue(h) == 12 && ShortDecimalValue(m) == 40;
    CanonicalLabelAccepted(true, h, m);
    assert "PM12:40" == Meridiem(true) + h + ":" + m;
  }

  /** Case and surrounding whitespace do not matter. */
  lemma PaddedLowerCaseExample()
    ensures ParseTimeString(" pm3:7\n") == Ok(Some(15 * 60 + 7))
  {
    var s, h, m := " pm3:7\n", "3", "7";
    assert ShortDecimalValue(h) == 3 && ShortDecimalValue(m) == 7;
    PaddedLowerCaseNormalized();
    assert Normalize(s) == Meridiem(true) + h + ":" + m;
    LabelAccepted(s, true, h, m);
  }

  lemma PaddedLowerCaseNormalized()
    ensures Normalize(" pm3:7\n") == "PM3:7"
  {
    assert " pm3:7\n" == " " + "pm3:7" + "\n";
    StripPadded(" ", "pm3:7", "\n");
    assert Upper("pm3:7") == "PM3:7";
  }

  /** A label without a meridiem is no time at all, not an error. */
  lemma NoMeridiemExample()
    ensures ParseTimeString("9:30") == Ok(None)
    ensures ParseTimeString("") == Ok(None)
  {
    StripUnpadded("9:30");
    assert Upper("9:30") == "9:30";
    StripUnpadded("");
  }

  /** Hour 13 does not exist on a 12-hour clock. */
  lemma HourThirteenRejected()
    ensures ParseTimeString("AM13:00") == ValueError
  {
    Rejected("13", "00");
    assert "AM13:00" == "AM" + "13" + ":" + "00";
  }

  /** Minute 60 does not exist. */
  lemma MinuteSixtyRejected()
    ensures ParseTimeString("AM9:60") == ValueError
  {
    Rejected("9", "60");
    assert "AM9:60" == "AM" + "9" + ":" + "60";
  }

  /** Trailing digits are unconverted data. */
  lemma TrailingDigitRejected()
    ensures ParseTimeString("AM9:305") == ValueError
  {
    Rejected("9", "305");
    assert "AM9:305" == "AM" + "9" + ":" + "305";
  }

  /** A meridiem with no colon after it cannot be read. */
  lemma MissingColonRejected()
    ensures ParseTimeString("PM930") == ValueError
  {
    var n := "PM930";
    StripUnpadded(n);
    UpperUnchanged(n);
    assert Find(n[2..], ":", 0).None?;
  }

  lemma Rejected(h: string, m: string)
    requires AllDigits(h) && AllDigits(m) && |m| > 0
    requires !(Hour12Token(h) && MinuteToken(m))
    ensures ParseTimeString("AM" + h + ":" + m) == ValueError
  {
    var s := "AM" + h + ":" + m;
    NormalizeCanonical(false, h, m);
    var rest := s[2..];
    assert rest == h + [':'] + m;
    FindAfter(h, ':', m);
    assert rest[..|h|] == h && rest[|h| + 1..] == m;
  }
}
